=== FILE: README.md ===
# ProyectoDB streaming catalogue — a Dafny model of its core rules

ProyectoDB is an Angular front end and two Node maintenance scripts for a
streaming catalogue kept in CouchDB. People (`person:` documents) act in
contents (`title:` documents, movies and series). A personal watchlist of
TVMaze shows is kept in the browser's local storage. This project models the
sequential rules inside that glue code and proves what they promise:

- **Watchlist store** (`Watchlist`, class `WatchlistService`). This is the list
  of watched shows, keyed by TVMaze id. It offers add, remove, toggle, per-field
  edits, a per-item video list with a main video, and a view counter. Every
  change writes the new list to storage under `mi_watchlist`.
- **Storage facade** (`Storage`, class `StorageService`). This is the key/value
  store. On top of it sit the multi-database connection configuration with its
  defaults, the legacy single-database view of that configuration, and a merge
  that writes only the credentials.
- **Catalog service** (`Catalog`, class `CatalogService`). It joins contents with
  their persons on the client (`populateContent`) and publishes both lists
  (`refreshData`). It de-duplicates the cast before a content is created. It
  also builds the content created by an import, including the default actor.
- **Search page** (`Search`). It derives the `title:` content id (the slug). It
  also covers the local genre translation, the summary with HTML tags stripped,
  the import payload and the watchlist card.
- **Reports service** (`ReportsService`). It builds the period selector and the
  top-downloads view query. It pairs collaborator rows with names. It lists the
  distinct genres, sorted.
- **Reports page** (`ReportsPage`, class `ReportsComponent`). This covers tab
  switching and the edit form: loading a content, the comma-list round trip,
  saving, and adding and removing seasons. It also covers the actor modal with
  its name-keyed list replacement, and the year helper.
- **Catalog page** (`CatalogPage`, class `CatalogComponent`). This is the create
  form: genre parsing, forcing the cast to the main actor, and the delete guard.
- **Migration script** (`Migrate`). It routes each document of `peliculas_db` to
  `actores_db`, to `series_db`, or leaves it in place. A document is copied, and
  the original is deleted only after the copy succeeded. Four counters track
  the outcome.
- **Setup script** (`Setup`). It defines the view `map` functions of the design
  document. It also covers the database-creation status handling and the seed
  loading, which inserts only the missing documents.

There are also three shared modules:

- `Types` holds the application's records.
- `Couch` holds the schemaless stored document, view keys and view rows.
- `Text` holds the JavaScript string idioms the code relies on: `split`, `trim`,
  `join`, the comma-list idiom `split(',').map(trim).filter(x => x)`, and
  code-unit string order. `Wrappers` holds `Option`.

What the outside world answers is a parameter of the model. This covers HTTP
status codes, fetched document lists, whether a probe found a document, user
confirmations and the outcome of a save. Requests the code would send are
outputs: the created document, the delete request, or the log of `POST` and
`DELETE` requests in the migration.

Behaviour of the code worth noting:

- `refreshData` has no error handler. If either listing fails, nothing is
  published.
- `importFromTvMaze` uses the first known person as the main actor, or a freshly
  created placeholder actor. The content is created without an id of its own.
- The reports layer queries CouchDB through a Mango selector and views.
- The collaborators are returned in view-row order.

## Model

| member | source | states |
|---|---|---|
| Storage.CouchView | src/services/storage.service.ts:79-87 | the legacy view names the series database and copies the host and both credentials |
| Storage.MergeCouch | src/services/storage.service.ts:89-95 | merging keeps the database mapping, and the legacy view of the result is the given config with the series database as its name |
| Storage.StorageService.GetItem | src/services/storage.service.ts:25-34 | the result is absent exactly when the key is missing or its text does not parse; otherwise it is the stored document |
| Storage.StorageService.SetItem | src/services/storage.service.ts:36-42 | the key then holds the value and reads back as it; every other key reads as before |
| Storage.StorageService.RemoveItem | src/services/storage.service.ts:44-46 | the key is gone and reads as absent; every other key reads as before |
| Storage.StorageService.GetMultiDbConfig | src/services/storage.service.ts:65-68 | the saved configuration, or the defaults when nothing (or nothing parsable) is saved |
| Storage.StorageService.SetMultiDbConfig | src/services/storage.service.ts:70-72 | the configuration read back afterwards is the one saved |
| Storage.StorageService.ResetMultiDbConfig | src/services/storage.service.ts:74-76 | after a reset the configuration read is the default one |
| Storage.StorageService.GetCouchDbConfig | src/services/storage.service.ts:79-87 | the legacy `dbName` is the series database of the current configuration; with nothing saved it is the default `series_db` view |
| Storage.StorageService.SetCouchDbConfig | src/services/storage.service.ts:89-95 | only host and credentials change; the database mapping is preserved and the legacy view reads back the given config |
| Storage.StorageService.ResetCouchDbConfig | src/services/storage.service.ts:97-99 | after a reset the defaults are read again and the legacy database is `series_db` |
| Watchlist.Find | src/services/watchlist.service.ts:30-32 | found exactly when some item has the id, and then it is the first such item |
| Watchlist.AddItem | src/services/watchlist.service.ts:72-79 | a listed id leaves the list unchanged, otherwise the item is appended; id uniqueness is preserved |
| Watchlist.RemoveId | src/services/watchlist.service.ts:81-84 | no item with the id remains, and every other item is kept |
| Watchlist.RemoveIdAbsent | src/services/watchlist.service.ts:81-84 | removing an id that is not listed leaves the list unchanged |
| Watchlist.RemoveIdUnique | src/services/watchlist.service.ts:81-84 | removal preserves id uniqueness |
| Watchlist.RemoveIdConcat | src/services/watchlist.service.ts:82 | removal distributes over concatenation, so the kept items stay in order |
| Watchlist.FilterVideos | src/services/watchlist.service.ts:159 | the filtered videos are exactly the old ones with a different id |
| Watchlist.FilterVideosDistinct | src/services/watchlist.service.ts:159 | filtering keeps video ids distinct |
| Watchlist.WithVideoAdded | src/services/watchlist.service.ts:139-148 | an id already present changes nothing; otherwise the video is appended and becomes main only when no main was set or it was empty; distinct ids are kept |
| Watchlist.WithVideoRemoved | src/services/watchlist.service.ts:157-166 | the id disappears; a removed main video is replaced by the first remaining one or none, and another main is kept |
| Watchlist.ApplyEdit | src/services/watchlist.service.ts:87-196 | an edit keeps the show id and changes only its own field; the counter becomes old value or 0, plus 1 |
| Watchlist.UpdateWhere | src/services/watchlist.service.ts:89-94 | same length and order; matching items are edited and the others kept; id uniqueness and distinct videos are preserved |
| Watchlist.NewItemFromShow | src/services/watchlist.service.ts:45-65 | the title is `name (year)` with the year before the first `-`, or `Sin año`; `es_top` holds exactly when the rating is at least 8; the defaults for the other fields |
| Watchlist.ToggleList | src/services/watchlist.service.ts:35-69 | membership of the show flips, membership of every other id is unchanged, and uniqueness is preserved |
| Watchlist.WatchlistService.constructor | src/services/watchlist.service.ts:20-24 | the list starts as the stored one, or empty when nothing, or a value of another shape, is stored |
| Watchlist.WatchlistService.IsInWatchlist | src/services/watchlist.service.ts:26-28 | true exactly when some item has the id |
| Watchlist.WatchlistService.GetItem | src/services/watchlist.service.ts:30-32 | the first item with the id, as `find` gives it: found exactly when listed, and with unique ids the only such item |
| Watchlist.WatchlistService.Update | src/services/watchlist.service.ts:198-201 | the in-memory list and the stored copy under `mi_watchlist` are both the new list; no other key changes |
| Watchlist.WatchlistService.Toggle | src/services/watchlist.service.ts:35-69 | the list becomes the toggled list, membership flips, the copy is persisted, and the invariants are kept |
| Watchlist.WatchlistService.Add | src/services/watchlist.service.ts:72-79 | a listed id changes nothing, not even storage; otherwise the item is appended and persisted |
| Watchlist.WatchlistService.RemoveById | src/services/watchlist.service.ts:81-84 | the id is no longer listed, the rest is kept, and the copy is persisted |
| Watchlist.WatchlistService.Edit | src/services/watchlist.service.ts:87-196 | every per-item edit maps the list and persists it, preserving the invariants |
| Watchlist.WatchlistService.UpdateVideo | src/services/watchlist.service.ts:87-96 | only `videoId` of the matching items changes; the new list is written under the watchlist key and no other key changes |
| Watchlist.WatchlistService.UpdateMyRating | src/services/watchlist.service.ts:99-108 | only `myRating` of the matching items changes; the new list is written under the watchlist key and no other key changes |
| Watchlist.WatchlistService.UpdateMyReview | src/services/watchlist.service.ts:111-120 | only `myReview` of the matching items changes; the new list is written under the watchlist key and no other key changes |
| Watchlist.WatchlistService.UpdateSummaryEs | src/services/watchlist.service.ts:123-132 | only `summaryEs` of the matching items changes; the new list is written under the watchlist key and no other key changes |
| Watchlist.WatchlistService.AddVideoTo | src/services/watchlist.service.ts:137-152 | each matching item then lists the video, without duplicate ids; the new list is written under the watchlist key and no other key changes |
| Watchlist.WatchlistService.RemoveVideoFrom | src/services/watchlist.service.ts:155-170 | no matching item lists the video or has it as main; the new list is written under the watchlist key and no other key changes |
| Watchlist.WatchlistService.SetMainVideo | src/services/watchlist.service.ts:173-182 | each matching item has the video as main; the new list is written under the watchlist key and no other key changes |
| Watchlist.WatchlistService.IncrementDownloadsOf | src/services/watchlist.service.ts:187-196 | each matching item's counter is its old value (or 0) plus 1; the new list is written under the watchlist key and no other key changes |
| Text.TrimStart | src/app/pages/reports/reports.component.ts:171 | the result is a suffix that does not start with white space, and everything removed is white space |
| Text.TrimEnd | src/app/pages/reports/reports.component.ts:171 | the result is a prefix that does not end with white space, and everything removed is white space |
| Text.TrimTrimmed | src/app/pages/catalog/catalog.component.ts:34 | `trim()` leaves no white space at either end |
| Text.TrimAbsent | src/app/pages/catalog/catalog.component.ts:34 | `trim()` adds no character: one absent from the input is absent from the result |
| Text.Split | src/app/pages/catalog/catalog.component.ts:34 | at least one piece, none containing the separator |
| Text.SplitJoin | src/app/pages/catalog/catalog.component.ts:34 | the pieces joined with the separator give the text back, so together with `Split` the pieces are exactly the separator-free runs of the text |
| Text.ParseListEntries | src/app/pages/reports/reports.component.ts:171-173 | every entry is non-empty, trimmed and comma-free, and there are no more entries than pieces |
| Text.CleanMembers | src/app/pages/catalog/catalog.component.ts:34 | an entry is kept exactly when it is the non-empty trim of some piece |
| Text.ParseListMembers | src/app/pages/catalog/catalog.component.ts:34 | the parsed entries are exactly the non-empty trimmed comma-separated pieces of the text |
| Text.ParseJoinRoundTrip | src/app/pages/reports/reports.component.ts:156-173 | joining clean entries with `, ` and parsing them back gives the original list |
| Text.BeforeFirst | src/services/watchlist.service.ts:47 | the result is the longest prefix without the separator |
| Text.YearOf | src/services/watchlist.service.ts:45-48 | the text before the first `-` of a non-empty date, or the fallback |
| Text.LexLessIrreflexive | src/services/reports.service.ts:104 | code-unit order is irreflexive |
| Text.LexLessTransitive | src/services/reports.service.ts:104 | code-unit order is transitive |
| Text.LexLessTotal | src/services/reports.service.ts:104 | any two different strings are ordered one way |
| Text.LexLessAsymmetric | src/services/reports.service.ts:104 | code-unit order is asymmetric |
| Search.Fold | src/app/pages/search/search.component.ts:268-270 | each character becomes at most one lower-case letter, digit or space |
| Search.Filtered | src/app/pages/search/search.component.ts:268-270 | only letters `a-z`, digits and white space remain |
| Search.ContentId | src/app/pages/search/search.component.ts:266-274 | the id is `title:` followed by a well-shaped slug |
| Search.SlugIsNorm | src/app/pages/search/search.component.ts:271-272 | trimming and folding space runs equals a one-pass reference normaliser |
| Search.NormShape | src/app/pages/search/search.component.ts:271-272 | the normaliser writes only `a-z`, `0-9` and `_`, with no `_` at either end and no two in a row |
| Search.SlugShape | src/app/pages/search/search.component.ts:267-272 | every slug has only `a-z0-9_`, no leading or trailing `_`, and never `__` |
| Search.SlugIgnoresCase | src/app/pages/search/search.component.ts:268 | names that differ only in letter case get the same id |
| Search.FilteredSameFold | src/app/pages/search/search.component.ts:268-270 | case-equal names filter to the same text |
| Search.SlugIgnoresSpaceRunLength | src/app/pages/search/search.component.ts:271-272 | the length of a white-space run does not change the id |
| Search.SlugAroundSpaces | src/app/pages/search/search.component.ts:271-272 | the slug of a name split by a white-space run depends only on the two sides |
| Search.TheBoys | src/app/pages/search/search.component.ts:266-274 | `The Boys` and `The  Boys` both give `title:the_boys` |
| Search.TranslateGenre | src/app/pages/search/search.component.ts:277-306 | a known genre becomes its non-empty table entry; an unknown one passes through |
| Search.TranslateGenres | src/app/pages/search/search.component.ts:305 | same length and order, genre by genre |
| Search.TranslateGenreIdempotent | src/app/pages/search/search.component.ts:278-304 | translating a translated genre changes nothing |
| Search.TranslateGenresIdempotent | src/app/pages/search/search.component.ts:305 | translating a translated list changes nothing |
| Search.StripTags | src/app/pages/search/search.component.ts:464 | no complete tag remains, and no character is added |
| Search.StripTagsKeepsText | src/app/pages/search/search.component.ts:464 | a complete tag is removed and the text before and after it is kept |
| Search.StripParagraph | src/app/pages/search/search.component.ts:464 | a summary wrapped in `<p>…</p>` comes out as its text |
| Search.StripTagsPlain | src/app/pages/search/search.component.ts:464 | text without `<` is returned unchanged |
| Search.GetSummary | src/app/pages/search/search.component.ts:460-465 | the non-empty Spanish summary, else the summary, with its tags stripped as `StripTags` strips them (so its untagged text is kept); unchanged when it has no `<` |
| Search.GetGenres | src/app/pages/search/search.component.ts:468-471 | the Spanish genres when present, else the genres |
| Search.BuildImportPayload | src/app/pages/search/search.component.ts:109-131 | a video is attached exactly when validated with a non-empty id, with the source URL or the watch URL; the name and genre fallbacks and the fixed fields |
| Search.CardItem | src/app/pages/search/search.component.ts:487-498 | the toggle entry, with the summary falling back to the stripped summary |
| Search.AddToWatchlist | src/app/pages/search/search.component.ts:486-507 | membership of the show flips: a listed show is removed, otherwise its card is appended; the new list is written under the watchlist key and no other key changes |
| Catalog.FindPerson | src/services/catalog.service.ts:36 | found exactly when some person has the id, and then it is the first such person |
| Catalog.Resolve | src/services/catalog.service.ts:37 | only persons of the list whose id is in the cast; when every id resolves, one person per id in order |
| Catalog.ResolveConcat | src/services/catalog.service.ts:37 | resolution works id by id, in cast order |
| Catalog.ResolveUnknown | src/services/catalog.service.ts:37 | ids that resolve to nobody are dropped without error |
| Catalog.PopulateContent | src/services/catalog.service.ts:35-44 | the content is kept whole; the main actor is present exactly when known; the cast is the resolved ids |
| Catalog.Dedup | src/services/catalog.service.ts:54 | no duplicates, the same ids, in first-occurrence order |
| Catalog.DedupNoDup | src/services/catalog.service.ts:54 | a duplicate-free list is left as it is |
| Catalog.ImportedContent | src/services/catalog.service.ts:88-100 | cast and main cast are the chosen actor, downloads are 0, and the documented defaults apply |
| Catalog.CatalogService.constructor | src/services/catalog.service.ts:13-14 | both published lists start empty, until the first refresh answers |
| Catalog.CatalogService.RefreshData | src/services/catalog.service.ts:20-31 | persons are the fetched ones, and contents are the fetched ones joined one-to-one against those persons; a failed fetch publishes nothing |
| Catalog.CatalogService.AddContent | src/services/catalog.service.ts:51-56 | the document sent differs only in its de-duplicated cast |
| Catalog.CatalogService.ImportFromTvMaze | src/services/catalog.service.ts:65-103 | the first person's id is the default actor, else a placeholder actor is created and its id used; when that creation fails no content is created; a created content is cast to its main actor alone, with 0 downloads |
| CatalogPage.Prepared | src/app/pages/catalog/catalog.component.ts:32-38 | the genres are the parsed entries; a non-empty main cast becomes the whole cast; nothing else changes |
| CatalogPage.PreparedRoundTrip | src/app/pages/catalog/catalog.component.ts:34-38 | a clean content saved with its own genres joined comes back unchanged |
| CatalogPage.PreparedIdempotent | src/app/pages/catalog/catalog.component.ts:34-38 | preparing twice is preparing once |
| CatalogPage.DedupSingle | src/services/catalog.service.ts:54 | a single cast id survives de-duplication |
| CatalogPage.CatalogComponent.constructor | src/app/pages/catalog/catalog.component.ts:16-30 | list view, empty genre text, blank movie |
| CatalogPage.CatalogComponent.Save | src/app/pages/catalog/catalog.component.ts:32-48 | the prepared item with its cast de-duplicated is sent and kept; success refreshes and returns to the list, failure keeps the view |
| CatalogPage.CatalogComponent.DeleteItem | src/app/pages/catalog/catalog.component.ts:50-57 | a delete of that id and revision is requested exactly when confirmed with both present |
| ReportsService.GetByDateRange | src/services/reports.service.ts:15-26 | a selector on type `content`, `$gte` start, `$lte` end, ascending by `premiered` |
| ReportsService.DateRangeAdmits | src/services/reports.service.ts:16-22 | the selector admits exactly the contents premiered between start and end, both included |
| ReportsService.DateRangeEmpty | src/services/reports.service.ts:16-22 | a period ending before it starts admits nothing |
| ReportsService.DateRangeInReleaseView | src/services/reports.service.ts:15-26 | an admitted document with a non-empty start appears in the release-date view |
| ReportsService.DateRangeAnswer | src/services/reports.service.ts:24-26 | given a database answer that meets the period query, every document is a content in the period, in ascending premiere order |
| ReportsService.GetTopDownloads | src/services/reports.service.ts:30-38 | the `by_downloads` view, descending, with documents, limit 10 by default |
| ReportsService.DocsOf | src/services/reports.service.ts:37 | one document per row, in row order |
| ReportsService.TopDownloadsDocs | src/services/reports.service.ts:30-38 | given a database answer that meets the top-downloads query, the documents are at most `limit` contents with numeric downloads, most downloaded first |
| ReportsService.GetCollaboratorsQuery | src/services/reports.service.ts:67-71 | grouped `collaborations` rows of the service's design document, from `[actor, ""]` to `[actor, {}]` |
| ReportsService.AfterView | src/services/reports.service.ts:72-78 | no rows ends with an empty list and no person lookup; otherwise the ids and counts of the rows, in order |
| ReportsService.NameOf | src/services/reports.service.ts:86-89 | the full name of the first person with the id, or `Desconocido` |
| ReportsService.NameCollaborators | src/services/reports.service.ts:85-91 | one entry per id, in order, with its name and its count |
| ReportsService.GetCollaborators | src/services/reports.service.ts:63-96 | one entry per row, in row order, with the row's count and the collaborator's name |
| ReportsService.CollaboratorsEmpty | src/services/reports.service.ts:74 | an empty view gives an empty list without a lookup |
| ReportsService.Insert | src/services/reports.service.ts:104 | insertion adds exactly one occurrence |
| ReportsService.InsertSorted | src/services/reports.service.ts:104 | insertion into a sorted list keeps it sorted |
| ReportsService.InsertNoDup | src/services/reports.service.ts:104 | inserting a new value keeps a sorted list duplicate-free |
| ReportsService.SortKeys | src/services/reports.service.ts:104 | the result is sorted and a permutation of the input |
| ReportsService.GetAllGenres | src/services/reports.service.ts:99-106 | the distinct keys, each once, in strictly ascending order |
| ReportsPage.AwardsList | src/app/pages/reports/reports.component.ts:143 | an award list is copied; an award text is spread into its characters |
| ReportsPage.EditableOf | src/app/pages/reports/reports.component.ts:138-153 | each editable field copies its content field, with `''` for a missing id, video URL or image |
| ReportsPage.FindContent | src/app/pages/reports/reports.component.ts:135 | none exactly when no content has the id, else the first that has it |
| ReportsPage.MaxSeasonNumber | src/app/pages/reports/reports.component.ts:199 | the largest season number |
| ReportsPage.NextSeasonNumber | src/app/pages/reports/reports.component.ts:199 | 1 with no seasons, else the largest number plus 1, above every number |
| ReportsPage.WithSeasonAdded | src/app/pages/reports/reports.component.ts:198-200 | the old seasons followed by one of 10 episodes with the next number; distinct numbers are kept |
| ReportsPage.SpliceOne | src/app/pages/reports/reports.component.ts:211 | `splice(index, 1)`: a valid index removes exactly that element, a negative one counts from the end, one past the end removes nothing |
| ReportsPage.SpliceOneKeepsOthers | src/app/pages/reports/reports.component.ts:211 | the other elements stay in order |
| ReportsPage.ReplaceByName | src/app/pages/reports/reports.component.ts:264-268 | same length; entries with that name become the update, and the others are kept |
| ReportsPage.ReplaceByNameIdempotent | src/app/pages/reports/reports.component.ts:289-293 | replacing a second time changes nothing |
| ReportsPage.GetYear | src/app/pages/reports/reports.component.ts:305-307 | the text before the first `-`, or `N/A` when absent or empty |
| ReportsPage.WithTexts | src/app/pages/reports/reports.component.ts:170-173 | the genres, awards and cast are the parsed entries of their texts, each entry non-empty, trimmed and comma-free; nothing else changes |
| ReportsPage.MessageFor | src/app/pages/reports/reports.component.ts:178-188 | the message is a success exactly when the update succeeded |
| ReportsPage.EditRoundTrip | src/app/pages/reports/reports.component.ts:156-173 | loading and saving clean genres and cast ids gives them back |
| ReportsPage.ReportsComponent.constructor | src/app/pages/reports/reports.component.ts:59-88 | the initial tab `dates` and empty state |
| ReportsPage.ReportsComponent.SetTab | src/app/pages/reports/reports.component.ts:90-97 | sets the tab; clears results, collaborators, edit content and message; runs the downloads report exactly for `downloads` |
| ReportsPage.ReportsComponent.LoadContentForEdit | src/app/pages/reports/reports.component.ts:129-160 | empty selection clears the edit; an unknown id changes nothing; otherwise the editable copy and the three joined texts |
| ReportsPage.ReportsComponent.SaveContentChanges | src/app/pages/reports/reports.component.ts:162-191 | the three lists are parsed from their texts; a success message and refresh exactly on success; saving ends |
| ReportsPage.ReportsComponent.EndSave | src/app/pages/reports/reports.component.ts:175-190 | the outcome's message is shown, saving stops, and the catalog is refreshed exactly after a successful update |
| ReportsPage.ReportsComponent.AddSeason | src/app/pages/reports/reports.component.ts:194-203 | appends the next season; without edit content nothing happens |
| ReportsPage.ReportsComponent.RemoveSeason | src/app/pages/reports/reports.component.ts:206-213 | splices the index out; without edit content or seasons nothing happens |
| ReportsPage.ReportsComponent.OpenActorDetail | src/app/pages/reports/reports.component.ts:252-274 | the image fallback; a biography is asked for exactly when missing and named, and then replaces the entries of that name |
| ReportsPage.ReportsComponent.SaveActorImage | src/app/pages/reports/reports.component.ts:282-302 | with an actor and a non-blank URL, the actor and its same-name entries get the image, and the person is updated when it has an id |
| ReportsPage.ReportsComponent.CloseActorDetail | src/app/pages/reports/reports.component.ts:276-280 | no actor selected and an empty image URL |
| Migrate.Documents | scripts/migrate_databases.cjs:66-68 | exactly the row documents whose id does not start with `_design` |
| Migrate.RouteOf | scripts/migrate_databases.cjs:84-121 | `person:` goes to actors; `title:` with `SERIE` or seasons goes to series; another `title:` stays; the rest is ignored |
| Migrate.Copy | scripts/migrate_databases.cjs:81-82 | the copy is the document without `_rev`, routed the same way |
| Migrate.Step | scripts/migrate_databases.cjs:84-121 | one counter at most per document; delete only after a 201 copy; a failed copy counts an error and leaves the source; every request is about the document |
| Migrate.Run | scripts/migrate_databases.cjs:59-122 | a non-200 listing aborts with no request; otherwise the documents are migrated in order |
| Migrate.MigrateOne | scripts/migrate_databases.cjs:76-121 | the loop body computes exactly one step |
| Migrate.MigratedCounts | scripts/migrate_databases.cjs:72-122 | the counters add up to the number of routed documents, at most the number of documents |
| Migrate.MigratedLogOrder | scripts/migrate_databases.cjs:87-111 | every delete is of `peliculas_db` and directly follows a 201 copy of the same id; every copy has no `_rev` and goes to its route's database |
| Migrate.MoviesUntouched | scripts/migrate_databases.cjs:113-117 | a movie that stays is never copied nor deleted |
| Migrate.MoviesAbsentFrom | scripts/migrate_databases.cjs:75-122 | no request concerns an id that is not among the documents |
| Setup.ByReleaseDate | scripts/setup_couchdb.js:83-87 | one row keyed by `premiered` exactly for a content with a non-empty date |
| Setup.ByDownloads | scripts/setup_couchdb.js:91-95 | one row exactly for a content whose downloads are a number |
| Setup.PerEntry | scripts/setup_couchdb.js:101-103 | one row per entry, keyed by the entry and the date or `''` |
| Setup.ByActor | scripts/setup_couchdb.js:99-105 | one row per cast id of a content, keyed `[actorId, premiered or '']` |
| Setup.ByGenre | scripts/setup_couchdb.js:109-115 | one row per genre of a content, keyed `[genre, premiered or '']` |
| Setup.InnerRows | scripts/setup_couchdb.js:122-126 | the inner loop emits one row per other position |
| Setup.OuterRows | scripts/setup_couchdb.js:121-127 | the outer loop emits `n - 1` rows per position |
| Setup.Collaborations | scripts/setup_couchdb.js:119-129 | rows only for contents with more than one cast id |
| Setup.CollaborationsCount | scripts/setup_couchdb.js:119-129 | `n * (n - 1)` rows |
| Setup.CollaborationsPairs | scripts/setup_couchdb.js:119-129 | a row is emitted exactly for each ordered pair of distinct positions, with value 1 |
| Setup.EmitCollaborations | scripts/setup_couchdb.js:119-129 | the nested loops emit exactly the collaboration rows |
| Setup.CreateDatabaseOutcome | scripts/setup_couchdb.js:37-47 | created exactly when ok; already exists exactly on 412; an error otherwise |
| Setup.FoundIds | scripts/setup_couchdb.js:159-165 | the ids of the seed documents the probe found |
| Setup.Missing | scripts/setup_couchdb.js:167 | exactly the seed documents whose id is not found |
| Setup.LoadSeedData | scripts/setup_couchdb.js:149-184 | no bulk request exactly when every seed id exists; otherwise the bulk insert holds exactly the seed documents not found |

## Left out

- HTTP plumbing is not modelled: `couchdb.service.ts`, `tvmaze.service.ts`, `gemini.service.ts` and the request helpers of both scripts. Status codes, fetched lists and probe results are parameters.
- Angular signals are plain fields. Dependency injection, templates, the DOM, `alert`, `confirm` and body scrolling are left out. A confirmation is a `bool` parameter.
- Concurrency is not modelled. `forkJoin` in `refreshData` is one atomic step. An `await` is the answer passed in.
- Refreshes that follow an asynchronous answer are not modelled: those after a delete in the catalog page, after the create in `importFromTvMaze`, and after the placeholder actor. `Save` and `SaveContentChanges` only report that a refresh follows.
- The migration's delete request is logged, but its own answer is ignored, as the script ignores it.
- JSON encoding is taken as the identity. A stored value of the wrong shape reads like a missing one. Storage quota errors in `setItem` are not modelled.
- Search.Fold: lower-casing and accent stripping cover ASCII and the Latin-1 letters. Other non-ASCII letters are dropped, because NFD decomposition of all of Unicode is not modelled.
- Text.LexLess: CouchDB's collation and JavaScript's `sort` are taken as code-unit order on Dafny characters. ICU collation and UTF-16 surrogate pairs are not modelled.
- Search.TranslateGenre: the table is a Dafny map, so JavaScript prototype keys such as `constructor` are not modelled.
- The reports service queries the design document `streaming`, while the setup script creates `_design/reports`. Each file is modelled as written.
- ReportsService.GetAllGenres: `by_genre` emits two-element array keys, but the genres are modelled as the string keys the service adds to its set.
- `getByActor` and `getByGenre` pass a scalar key to array-keyed views; they are not modelled.
- `runDateReport`, `runDownloadsReport` and `runCollabReport` are not modelled as methods. They subscribe to queries modelled in `ReportsService` (`getByDateRange`, `getTopDownloads`, `getCollaborators`).
- `runActorReport` and `runGenreReport` subscribe to `getByActor` and `getByGenre`, which are not modelled, so these two reports are not modelled either.
- `runCollabReport` looks up each collaborator's person by full name in the catalog's person list. That lookup is not modelled, so the `person` of a collaborator row is an input to the model.
- `openContentDetail` and the video handling of both pages are not modelled. They set view state and load a YouTube player.
- The YouTube-id regular expressions are not modelled, and neither is `getCardGradient`.
- Catalog methods that are called but not shown are not part of this model: `updateContent`, `updatePersonImage`, `contentExists` and `getDescription`.
- `GeminiService.generateActorBio`, called by the reports page, is not part of this model.
- Downloads and season numbers are unbounded integers. Ratings are reals that are only compared or copied.
- The CORS setup and the design-document replacement in the setup script are not modelled.

=== FILE: catalog.dfy ===
/**
 * The catalog service (src/services/catalog.service.ts): the client-side join of
 * contents with the persons they reference, the published catalog state, the
 * cast de-duplication done before a content is created, and the construction of
 * an imported content. Requests to the database are outputs of the methods (the
 * documents to create); what the database answers is an input.
 */
module Catalog {
  import opened Wrappers
  import opened Types

  /** Some person has document id `id`. */
  predicate Known(persons: seq<Person>, id: string) {
    exists k :: 0 <= k < |persons| && persons[k].id == Some(id)
  }

  /** `allPersons.find(p => p._id === id)`: the first person with that id. */
  function FindPerson(persons: seq<Person>, id: string): (r: Option<Person>)
    ensures r.Some? <==> Known(persons, id)
    ensures r.Some? ==> r.value.id == Some(id)
    ensures r.Some? ==>
      exists k :: 0 <= k < |persons| && persons[k] == r.value && forall j :: 0 <= j < k ==> persons[j].id != Some(id)
  {
    if persons == [] then None
    else if persons[0].id == Some(id) then Some(persons[0])
    else
      var r := FindPerson(persons[1..], id);
      assert Known(persons, id) ==> Known(persons[1..], id) by {
        if Known(persons, id) {
          var k :| 0 <= k < |persons| && persons[k].id == Some(id);
          assert persons[1..][k - 1].id == Some(id);
        }
      }
      if r.Some? then
        assert exists k :: 0 <= k < |persons| && persons[k] == r.value && forall j :: 0 <= j < k ==> persons[j].id != Some(id) by {
          var k :| 0 <= k < |persons[1..]| && persons[1..][k] == r.value && forall j :: 0 <= j < k ==> persons[1..][j].id != Some(id);
          assert persons[k + 1] == r.value;
          forall j | 0 <= j < k + 1 ensures persons[j].id != Some(id) {
            if j > 0 { assert persons[j] == persons[1..][j - 1]; }
          }
        }
        r
      else r
  }

  /** The person `find` returns for one id, as a list of at most one element. */
  function Found(persons: seq<Person>, id: string): (r: seq<Person>)
    ensures |r| <= 1
    ensures |r| == 1 <==> Known(persons, id)
    ensures forall p :: p in r ==> p in persons && p.id == Some(id)
  {
    match FindPerson(persons, id)
    case Some(p) => [p]
    case None => []
  }

  /** Every id of `ids` is some person's. */
  predicate AllKnown(ids: seq<string>, persons: seq<Person>) {
    forall k :: 0 <= k < |ids| ==> Known(persons, ids[k])
  }

  lemma AllKnownTail(ids: seq<string>, persons: seq<Person>)
    requires ids != [] && AllKnown(ids, persons)
    ensures Known(persons, ids[0]) && AllKnown(ids[1..], persons)
  {
    forall k | 0 <= k < |ids[1..]| ensures Known(persons, ids[1..][k]) {
      assert ids[1..][k] == ids[k + 1];
    }
  }

  /** A resolved first id in front of the resolved rest lines up with the ids. */
  lemma ResolveCons(ids: seq<string>, persons: seq<Person>, head: seq<Person>, rest: seq<Person>)
    requires ids != [] && Known(persons, ids[0]) && head == Found(persons, ids[0])
    requires |rest| == |ids| - 1 && forall k :: 0 <= k < |rest| ==> rest[k].id == Some(ids[1..][k])
    ensures |head + rest| == |ids| && forall k :: 0 <= k < |ids| ==> (head + rest)[k].id == Some(ids[k])
  {
    var r := head + rest;
    forall k | 0 <= k < |ids| ensures r[k].id == Some(ids[k]) {
      if k == 0 { assert r[0] in head; }
      else { assert r[k] == rest[k - 1] && ids[k] == ids[1..][k - 1]; }
    }
  }

  /**
   * `castIds.map(id => find(id)).filter(p => !!p)`: the persons of the ids that
   * resolve, in id order, duplicates kept.
   */
  function Resolve(ids: seq<string>, persons: seq<Person>): (r: seq<Person>)
    ensures |r| <= |ids|
    ensures forall p :: p in r ==> p in persons && p.id.Some? && p.id.value in ids
    ensures AllKnown(ids, persons) ==>
              |r| == |ids| && forall k :: 0 <= k < |ids| ==> r[k].id == Some(ids[k])
  {
    if ids == [] then []
    else
      var head := Found(persons, ids[0]);
      var rest := Resolve(ids[1..], persons);
      var r := head + rest;
      assert forall p :: p in rest ==> p.id.value in ids by {
        forall p | p in rest ensures p.id.value in ids {
          var k :| 0 <= k < |ids[1..]| && ids[1..][k] == p.id.value;
          assert ids[k + 1] == p.id.value;
        }
      }
      assert forall p :: p in r ==> p in head || p in rest;
      assert AllKnown(ids, persons) ==>
               |r| == |ids| && forall k :: 0 <= k < |ids| ==> r[k].id == Some(ids[k]) by {
        if AllKnown(ids, persons) {
          AllKnownTail(ids, persons);
          ResolveCons(ids, persons, head, rest);
        }
      }
      r
  }

  /** Resolution works id by id: the persons of `a + b` are those of `a` followed by those of `b`. */
  lemma {:induction false} ResolveConcat(a: seq<string>, b: seq<string>, persons: seq<Person>)
    ensures Resolve(a + b, persons) == Resolve(a, persons) + Resolve(b, persons)
  {
    if a == [] {
      assert a + b == b;
    } else {
      assert (a + b)[1..] == a[1..] + b;
      assert (a + b)[0] == a[0];
      ResolveConcat(a[1..], b, persons);
    }
  }

  /** Ids that resolve to nobody are dropped without trace. */
  lemma {:induction false} ResolveUnknown(ids: seq<string>, persons: seq<Person>)
    requires forall k :: 0 <= k < |ids| ==> !Known(persons, ids[k])
    ensures Resolve(ids, persons) == []
  {
    if ids != [] {
      forall k | 0 <= k < |ids[1..]| ensures !Known(persons, ids[1..][k]) {
        assert ids[1..][k] == ids[k + 1];
      }
      ResolveUnknown(ids[1..], persons);
    }
  }

  /** `populateContent`: the content with its main cast and cast resolved against `persons`. */
  function PopulateContent(content: Content, persons: seq<Person>): (r: ContentPopulated)
    ensures r.content == content
    ensures r.actorPrincipal.Some? <==> Known(persons, content.mainCastId)
    ensures r.actorPrincipal.Some? ==> r.actorPrincipal.value in persons && r.actorPrincipal.value.id == Some(content.mainCastId)
    ensures r.reparto == Resolve(content.castIds, persons)
    ensures forall p :: p in r.reparto ==> p in persons
  {
    var main := FindPerson(persons, content.mainCastId);
    assert main.Some? ==> main.value in persons;
    ContentPopulated(content, main, Resolve(content.castIds, persons))
  }

  /** Every referenced person of every populated content is one of `persons`. */
  predicate JoinedWith(contents: seq<ContentPopulated>, persons: seq<Person>) {
    forall k :: 0 <= k < |contents| ==>
      (contents[k].actorPrincipal.Some? ==> contents[k].actorPrincipal.value in persons) &&
      (forall p :: p in contents[k].reparto ==> p in persons)
  }

  /** No value appears twice. */
  predicate NoDup(xs: seq<string>) {
    forall i, j :: 0 <= i < j < |xs| ==> xs[i] != xs[j]
  }

  /** The position of the first occurrence of `x`. */
  function FirstIndex(xs: seq<string>, x: string): (r: nat)
    requires x in xs
    ensures r < |xs| && xs[r] == x
    ensures forall j :: 0 <= j < r ==> xs[j] != x
  {
    if xs[0] == x then 0 else 1 + FirstIndex(xs[1..], x)
  }

  /** The first occurrence of `x` in a prefix that holds it is its first occurrence overall. */
  lemma FirstIndexPrefix(xs: seq<string>, n: nat, x: string)
    requires n <= |xs| && x in xs[..n]
    ensures FirstIndex(xs, x) == FirstIndex(xs[..n], x)
  {
    var i := FirstIndex(xs[..n], x);
    var j := FirstIndex(xs, x);
    assert xs[i] == x;
    forall m | 0 <= m < i ensures xs[m] != x {
      assert xs[m] == xs[..n][m];
    }
  }

  /**
   * `[...new Set(xs)]`: each value once, at the place of its first occurrence.
   * Built as the set is: value by value, adding what it does not hold yet.
   */
  function Dedup(xs: seq<string>): (r: seq<string>)
    ensures NoDup(r)
    ensures forall x :: x in r <==> x in xs
    ensures forall i, j :: 0 <= i < j < |r| ==> FirstIndex(xs, r[i]) < FirstIndex(xs, r[j])
  {
    if xs == [] then []
    else
      var init := xs[..|xs| - 1];
      var last := xs[|xs| - 1];
      var d := Dedup(init);
      assert forall x :: x in xs <==> x in init || x == last by {
        assert xs == init + [last];
      }
      forall i | 0 <= i < |d| ensures FirstIndex(xs, d[i]) == FirstIndex(init, d[i]) {
        FirstIndexPrefix(xs, |xs| - 1, d[i]);
      }
      if last in d then d
      else
        var r := d + [last];
        assert FirstIndex(xs, last) == |xs| - 1 by {
          forall m | 0 <= m < |xs| - 1 ensures xs[m] != last {
            assert xs[m] == init[m];
          }
        }
        forall i, j | 0 <= i < j < |r| ensures FirstIndex(xs, r[i]) < FirstIndex(xs, r[j]) {
          if j < |d| { assert r[i] == d[i] && r[j] == d[j]; }
          else { assert r[i] == d[i]; }
        }
        r
  }

  /** A list without duplicates is its own de-duplication. */
  lemma {:induction false} DedupNoDup(xs: seq<string>)
    requires NoDup(xs)
    ensures Dedup(xs) == xs
  {
    if xs != [] {
      var init := xs[..|xs| - 1];
      assert NoDup(init) by {
        forall i, j | 0 <= i < j < |init| ensures init[i] != init[j] {
          assert init[i] == xs[i] && init[j] == xs[j];
        }
      }
      DedupNoDup(init);
      assert xs[|xs| - 1] !in init by {
        forall i | 0 <= i < |init| ensures init[i] != xs[|xs| - 1] {
          assert init[i] == xs[i];
        }
      }
      assert init + [xs[|xs| - 1]] == xs;
    }
  }

  /** The fields `importFromTvMaze` reads from its partial content. */
  datatype PartialContent = PartialContent(
    contentType: Option<ContentType>,
    name: Option<string>,
    genres: Option<seq<string>>,
    premiered: Option<string>,
    rating: Option<real>,
    seasons: Option<seq<Season>>)

  /** The placeholder actor created when the catalog has no person. */
  const DUMMY_ACTOR: Person :=
    Person(None, None, "Actor Desconocido", "N/A", "2000-01-01", Hombre, None, None)

  /** The content `importFromTvMaze` creates, cast to `actorId` alone. */
  function ImportedContent(partial: PartialContent, actorId: string): (r: Content)
    ensures r.mainCastId == actorId && r.castIds == [actorId]
    ensures r.mainCastId in r.castIds
    ensures r.downloads == 0 && r.awards == AwardText("")
    ensures r.contentType == partial.contentType.GetOr(Serie)
    ensures r.name == OrElse(partial.name, "Sin nombre")
    ensures r.premiered == OrElse(partial.premiered, "2000-01-01")
    ensures r.genres == partial.genres.GetOr([])
    ensures r.seasons == Some(partial.seasons.GetOr([]))
    ensures r.rating == Some(partial.rating.GetOr(0.0))
    ensures r.id.None? && r.rev.None? && r.videos.None? && r.video.None? && r.image.None?
  {
    Content(
      None, None,
      partial.contentType.GetOr(Serie),
      OrElse(partial.name, "Sin nombre"),
      partial.genres.GetOr([]),
      OrElse(partial.premiered, "2000-01-01"),
      AwardText(""),
      0,
      Some(partial.rating.GetOr(0.0)),
      actorId,
      [actorId],
      Some(partial.seasons.GetOr([])),
      None, None, None)
  }

  class CatalogService {
    /** The `contents` signal. */
    var contents: seq<ContentPopulated>
    /** The `persons` signal. */
    var persons: seq<Person>

    constructor ()
      ensures contents == [] && persons == []
    {
      contents := [];
      persons := [];
    }

    /**
     * `refreshData`: with both listings fetched, publishes the persons and the
     * contents joined against exactly those persons; when a listing fails nothing
     * is published.
     */
    method RefreshData(fetched: Option<(seq<Content>, seq<Person>)>)
      modifies this
      ensures fetched.None? ==> contents == old(contents) && persons == old(persons)
      ensures fetched.Some? ==> persons == fetched.value.1
      ensures fetched.Some? ==> |contents| == |fetched.value.0|
      ensures fetched.Some? ==>
                forall k :: 0 <= k < |contents| ==> contents[k] == PopulateContent(fetched.value.0[k], persons)
      ensures fetched.Some? ==> JoinedWith(contents, persons)
      ensures old(JoinedWith(contents, persons)) ==> JoinedWith(contents, persons)
    {
      if fetched.Some? {
        var (c, p) := fetched.value;
        persons := p;
        contents := seq(|c|, k requires 0 <= k < |c| => PopulateContent(c[k], p));
      }
    }

    /** `addContent`: the document sent for creation, with its cast ids de-duplicated. */
    method AddContent(content: Content) returns (created: Content)
      ensures created == content.(castIds := Dedup(content.castIds))
      ensures NoDup(created.castIds)
      ensures forall id :: id in created.castIds <==> id in content.castIds
      ensures forall i, j :: 0 <= i < j < |created.castIds| ==>
                FirstIndex(content.castIds, created.castIds[i]) < FirstIndex(content.castIds, created.castIds[j])
    {
      created := content;
      created := created.(castIds := Dedup(content.castIds));
    }

    /**
     * `importFromTvMaze`: picks the first person's id as the default actor, or,
     * when there is none, asks for the placeholder actor to be created and uses
     * the id the database gave it. `createdId` is that answer: `None` when the
     * creation was rejected or returned no document, and then `res!.id` throws and
     * no content is created. Returns the placeholder to create (if any) and the
     * content to create (if any).
     */
    method ImportFromTvMaze(partial: PartialContent, createdId: Option<string>)
      returns (dummy: Option<Person>, created: Option<Content>)
      ensures |persons| > 0 && Present(persons[0].id) ==>
                dummy.None? && created == Some(ImportedContent(partial, persons[0].id.value))
      ensures !(|persons| > 0 && Present(persons[0].id)) ==> dummy == Some(DUMMY_ACTOR)
      ensures !(|persons| > 0 && Present(persons[0].id)) && createdId.None? ==> created.None?
      ensures !(|persons| > 0 && Present(persons[0].id)) && createdId.Some? ==>
                created == Some(ImportedContent(partial, createdId.value))
      ensures created.Some? ==>
                created.value.castIds == [created.value.mainCastId] && created.value.downloads == 0
    {
      var defaultActorId: Option<string> := if |persons| > 0 then persons[0].id else None;
      dummy := None;
      if !Present(defaultActorId) {
        dummy := Some(DUMMY_ACTOR);
        defaultActorId := createdId;
      }
      created := None;
      if defaultActorId.Some? {
        created := Some(ImportedContent(partial, defaultActorId.value));
      }
    }
  }
}

=== FILE: catalog_page.dfy ===
/**
 * The catalog page (src/app/pages/catalog/catalog.component.ts): the create
 * form that turns the typed genre list into `genres`, casts the content to its
 * main actor alone, and hands it to the catalog service; and the guard before a
 * content is deleted. The browser dialogs are inputs (`confirmed`), and what the
 * database answers to the creation is the input `addOk`.
 */
module CatalogPage {
  import opened Wrappers
  import opened Types
  import Text
  import Catalog

  /** The `viewMode` signal: `'list'` or `'create'`. */
  datatype ViewMode = ListMode | CreateMode

  /** A delete request for one revision of one document. */
  datatype DeleteRequest = DeleteRequest(id: string, rev: string)

  /** The form's initial `newItem`: an empty movie with nobody in its cast. */
  const BLANK_ITEM: Content :=
    Content(None, None, Movie, "", [], "", AwardText(""), 0, Some(0.0), "", [], None, None, None, None)

  /**
   * The fields `save` fills in before the content is sent: the genres are the
   * comma-separated entries of `generosInput`, trimmed and non-empty, and a
   * non-empty main cast id becomes the whole cast. Nothing else changes.
   */
  function Prepared(item: Content, generosInput: string): (r: Content)
    ensures r == item.(genres := r.genres, castIds := r.castIds)
    ensures r.genres == Text.ParseList(generosInput)
    ensures forall k :: 0 <= k < |r.genres| ==> Text.ListEntry(r.genres[k])
    ensures item.mainCastId != "" ==> r.castIds == [item.mainCastId]
    ensures item.mainCastId == "" ==> r.castIds == item.castIds
    ensures r.mainCastId != "" ==> r.mainCastId in r.castIds
  {
    Text.ParseListEntries(generosInput);
    var withGenres := item.(genres := Text.ParseList(generosInput));
    if item.mainCastId != "" then withGenres.(castIds := [item.mainCastId]) else withGenres
  }

  /**
   * A content whose genres are clean entries and whose cast is its main actor
   * (or which has no main actor) comes back unchanged when the form is filled
   * with its genres joined by ", " and saved again.
   */
  lemma {:induction false} PreparedRoundTrip(item: Content)
    requires forall k :: 0 <= k < |item.genres| ==> Text.ListEntry(item.genres[k])
    requires item.mainCastId == "" || item.castIds == [item.mainCastId]
    ensures Prepared(item, Text.Join(item.genres, ", ")) == item
  {
    Text.ParseJoinRoundTrip(item.genres);
  }

  /**
   * Preparing twice with the same input is preparing once.
   * A documented property of `Prepared`; it follows from the definition.
   */
  lemma PreparedIdempotent(item: Content, generosInput: string)
    ensures Prepared(Prepared(item, generosInput), generosInput) == Prepared(item, generosInput)
  {
  }

  /** A single cast id is already free of duplicates: the service sends it as it is. */
  lemma {:induction false} DedupSingle(id: string)
    ensures Catalog.Dedup([id]) == [id]
  {
    Catalog.DedupNoDup([id]);
  }

  class CatalogComponent {
    /** The injected catalog service. */
    const catalog: Catalog.CatalogService
    var viewMode: ViewMode
    /** The genre text field, comma separated. */
    var generosInput: string
    /** The content being created. */
    var newItem: Content

    constructor (catalog: Catalog.CatalogService)
      ensures this.catalog == catalog
      ensures viewMode == ListMode && generosInput == "" && newItem == BLANK_ITEM
    {
      this.catalog := catalog;
      viewMode := ListMode;
      generosInput := "";
      newItem := BLANK_ITEM;
    }

    /**
     * `save`: prepares `newItem` and asks the service to create it. The service
     * de-duplicates the cast of the very object it is given, so `newItem` ends up
     * equal to the document sent (`created`). When the creation succeeds the
     * catalog is refreshed and the page returns to the list; when it fails the
     * page stays where it was.
     */
    method Save(addOk: bool) returns (created: Content, refreshes: bool)
      modifies this
      ensures created == Prepared(old(newItem), old(generosInput)).(castIds := created.castIds)
      ensures created.castIds == Catalog.Dedup(Prepared(old(newItem), old(generosInput)).castIds)
      ensures old(newItem.mainCastId) != "" ==> created.castIds == [old(newItem.mainCastId)]
      ensures Catalog.NoDup(created.castIds)
      ensures newItem == created && generosInput == old(generosInput)
      ensures refreshes == addOk
      ensures viewMode == if addOk then ListMode else old(viewMode)
    {
      newItem := Prepared(newItem, generosInput);
      if newItem.mainCastId != "" {
        DedupSingle(newItem.mainCastId);
      }
      created := catalog.AddContent(newItem);
      newItem := created;
      refreshes := false;
      if addOk {
        refreshes := true;
        viewMode := ListMode;
      }
    }

    /**
     * `deleteItem`: a delete is requested only when the user confirms and the
     * content has both a non-empty `_id` and a non-empty `_rev`; the request is
     * for exactly that revision.
     */
    method DeleteItem(item: Content, confirmed: bool) returns (request: Option<DeleteRequest>)
      ensures request.Some? <==> confirmed && Present(item.id) && Present(item.rev)
      ensures request.Some? ==> request.value == DeleteRequest(item.id.value, item.rev.value)
    {
      if !confirmed {
        return None;
      }
      request := None;
      if Present(item.id) && Present(item.rev) {
        request := Some(DeleteRequest(item.id.value, item.rev.value));
      }
    }
  }
}

=== FILE: couch.dfy ===
/**
 * CouchDB documents as the two maintenance scripts and the reports service see
 * them: schemaless JSON objects of which only a few fields are ever inspected.
 * Those fields are typed; every other field is carried along untouched in
 * `others`. A view row is what a `map` function passes to `emit`.
 */
module Couch {
  import opened Wrappers
  import opened Types

  /**
   * A stored document. `downloads` is `Some` exactly when the field holds a
   * number (`typeof doc.downloads === 'number'`); `seasons`, `castIds` and
   * `genres` are `Some` when the field holds an array.
   */
  datatype RawDoc = RawDoc(
    id: string,
    rev: Option<string>,
    docType: Option<string>,
    contentType: Option<string>,
    name: Option<string>,
    fullName: Option<string>,
    premiered: Option<string>,
    downloads: Option<int>,
    castIds: Option<seq<string>>,
    genres: Option<seq<string>>,
    seasons: Option<seq<Season>>,
    others: map<string, string>)

  /** `doc.type === 'content'`. */
  predicate IsContent(doc: RawDoc) {
    doc.docType == Some("content")
  }

  /** A view key: a string, a number, or a two-element array of strings. */
  datatype Key = StrKey(s: string) | NumKey(n: int) | PairKey(first: string, second: string)

  /** A view value: `null` or a number. */
  datatype RowValue = NullValue | Count(n: int)

  /** One `emit(key, value)`. */
  datatype Row = Row(key: Key, value: RowValue)

  /** `s.startsWith(prefix)`. */
  predicate StartsWith(s: string, prefix: string) {
    |prefix| <= |s| && s[..|prefix|] == prefix
  }
}

=== FILE: migrate.dfy ===
/**
 * The migration script (scripts/migrate_databases.cjs): moves the actors and the
 * series out of `peliculas_db` into `actores_db` and `series_db`. Every
 * document of the listing is routed by its id prefix and, for titles, by whether
 * it looks like a series; a moved document is copied without its revision and the
 * original is deleted only once the copy was created. The HTTP answers are
 * inputs: the listing, and `post`, the status a copy request answers with.
 * The requests the script makes are collected, in order, in a log.
 */
module Migrate {
  import opened Wrappers
  import opened Types
  import opened Couch

  /** A row of `_all_docs?include_docs=true`; `doc` is absent for a row without a document. */
  datatype ListingRow = ListingRow(doc: Option<RawDoc>)
  datatype Listing = Listing(status: int, rows: seq<ListingRow>)

  /** The documents to migrate: rows with a document that is not a design document, in order. */
  function Documents(rows: seq<ListingRow>): (r: seq<RawDoc>)
    ensures |r| <= |rows|
    ensures forall d :: d in r <==> ListingRow(Some(d)) in rows && !StartsWith(d.id, "_design")
  {
    if rows == [] then []
    else
      var rest := Documents(rows[1..]);
      assert forall row :: row in rows <==> row == rows[0] || row in rows[1..];
      (if rows[0].doc.Some? && !StartsWith(rows[0].doc.value.id, "_design") then [rows[0].doc.value] else []) + rest
  }

  /** Where a document goes. */
  datatype Route = ToActores | ToSeries | StaysMovie | Ignored

  /** `doc.contentType === 'SERIE' || (doc.seasons && doc.seasons.length > 0)`. */
  predicate HasSeries(doc: RawDoc) {
    doc.contentType == Some("SERIE") || (doc.seasons.Some? && |doc.seasons.value| > 0)
  }

  function RouteOf(doc: RawDoc): (r: Route)
    ensures r == ToActores <==> StartsWith(doc.id, "person:")
    ensures r == ToSeries <==> !StartsWith(doc.id, "person:") && StartsWith(doc.id, "title:") && HasSeries(doc)
    ensures r == StaysMovie <==> !StartsWith(doc.id, "person:") && StartsWith(doc.id, "title:") && !HasSeries(doc)
    ensures r == Ignored <==> !StartsWith(doc.id, "person:") && !StartsWith(doc.id, "title:")
  {
    if StartsWith(doc.id, "person:") then ToActores
    else if StartsWith(doc.id, "title:") then (if HasSeries(doc) then ToSeries else StaysMovie)
    else Ignored
  }

  /** The database a moved document is copied to. */
  function TargetDb(route: Route): (r: string)
    requires route == ToActores || route == ToSeries
  {
    if route == ToActores then "actores_db" else "series_db"
  }

  /** The copy sent to the target database: the document without `_rev`. */
  function Copy(doc: RawDoc): (r: RawDoc)
    ensures r.rev.None?
    ensures r.(rev := doc.rev) == doc
    ensures RouteOf(r) == RouteOf(doc)
  {
    doc.(rev := None)
  }

  datatype Request = Post(db: string, doc: RawDoc) | Delete(db: string, id: string, rev: Option<string>)

  /** The id a request is about. */
  function Subject(req: Request): (r: string) {
    if req.Post? then req.doc.id else req.id
  }

  datatype Stats = Stats(actores: nat, series: nat, peliculas: nat, errores: nat)

  const NO_STATS: Stats := Stats(0, 0, 0, 0)

  function Total(s: Stats): (r: nat) {
    s.actores + s.series + s.peliculas + s.errores
  }

  /**
   * The outcome of copying `doc` to `db`: on 201 the source is deleted and
   * `moved` is counted, otherwise an error is.
   */
  function Transfer(stats: Stats, moved: Stats, db: string, doc: RawDoc, post: (string, RawDoc) -> int): (Stats, seq<Request>) {
    if post(db, Copy(doc)) == 201 then (moved, [Post(db, Copy(doc)), Delete("peliculas_db", doc.id, doc.rev)])
    else (stats.(errores := stats.errores + 1), [Post(db, Copy(doc))])
  }

  /** The counters after one document and the requests made for it. */
  function Step(stats: Stats, doc: RawDoc, post: (string, RawDoc) -> int): (r: (Stats, seq<Request>))
    ensures RouteOf(doc) == Ignored ==> r == (stats, [])
    ensures RouteOf(doc) == StaysMovie ==> r == (stats.(peliculas := stats.peliculas + 1), [])
    ensures RouteOf(doc) == Ignored ==> Total(r.0) == Total(stats)
    ensures RouteOf(doc) != Ignored ==> Total(r.0) == Total(stats) + 1
    ensures forall k :: 0 <= k < |r.1| ==> Subject(r.1[k]) == doc.id
    ensures RouteOf(doc) == ToActores || RouteOf(doc) == ToSeries ==>
              var db := TargetDb(RouteOf(doc));
              if post(db, Copy(doc)) == 201 then
                r.1 == [Post(db, Copy(doc)), Delete("peliculas_db", doc.id, doc.rev)] &&
                r.0 == (if RouteOf(doc) == ToActores then stats.(actores := stats.actores + 1)
                        else stats.(series := stats.series + 1))
              else
                r.1 == [Post(db, Copy(doc))] && r.0 == stats.(errores := stats.errores + 1)
  {
    match RouteOf(doc)
    case Ignored => (stats, [])
    case StaysMovie => (stats.(peliculas := stats.peliculas + 1), [])
    case ToActores => Transfer(stats, stats.(actores := stats.actores + 1), "actores_db", doc, post)
    case ToSeries => Transfer(stats, stats.(series := stats.series + 1), "series_db", doc, post)
  }

  /** The counters and the request log after migrating `docs` in order. */
  function Migrated(docs: seq<RawDoc>, post: (string, RawDoc) -> int): (Stats, seq<Request>) {
    if docs == [] then (NO_STATS, [])
    else
      var (stats, log) := Migrated(docs[..|docs| - 1], post);
      var (next, reqs) := Step(stats, docs[|docs| - 1], post);
      (next, log + reqs)
  }

  /**
   * `run`: a listing that did not answer 200 stops the script before any
   * request about a document; otherwise every document is handled in turn.
   */
  method Run(listing: Listing, post: (string, RawDoc) -> int) returns (aborted: bool, stats: Stats, log: seq<Request>)
    ensures aborted <==> listing.status != 200
    ensures aborted ==> stats == NO_STATS && log == []
    ensures !aborted ==> (stats, log) == Migrated(Documents(listing.rows), post)
  {
    if listing.status != 200 {
      return true, NO_STATS, [];
    }
    var docs := Documents(listing.rows);
    stats := NO_STATS;
    log := [];
    for i := 0 to |docs|
      invariant (stats, log) == Migrated(docs[..i], post)
    {
      assert docs[..i + 1][..i] == docs[..i];
      var next, reqs := MigrateOne(stats, docs[i], post);
      stats, log := next, log + reqs;
    }
    assert docs[..|docs|] == docs;
    aborted := false;
  }

  /** The body of the loop of `run`, for one document. */
  method MigrateOne(stats: Stats, doc: RawDoc, post: (string, RawDoc) -> int) returns (next: Stats, reqs: seq<Request>)
    ensures (next, reqs) == Step(stats, doc, post)
  {
    next, reqs := stats, [];
    var newDoc := doc.(rev := None);
    assert newDoc == Copy(doc);
    if StartsWith(doc.id, "person:") {
      assert Step(stats, doc, post) == Transfer(stats, stats.(actores := stats.actores + 1), "actores_db", doc, post);
      reqs := reqs + [Post("actores_db", newDoc)];
      var status := post("actores_db", newDoc);
      if status == 201 {
        next := next.(actores := next.actores + 1);
        reqs := reqs + [Delete("peliculas_db", doc.id, doc.rev)];
        assert reqs == [Post("actores_db", newDoc), Delete("peliculas_db", doc.id, doc.rev)];
      } else {
        next := next.(errores := next.errores + 1);
        assert reqs == [Post("actores_db", newDoc)];
      }
    } else if StartsWith(doc.id, "title:") {
      var hasSeries := doc.contentType == Some("SERIE") || (doc.seasons.Some? && |doc.seasons.value| > 0);
      if hasSeries {
        assert Step(stats, doc, post) == Transfer(stats, stats.(series := stats.series + 1), "series_db", doc, post);
        reqs := reqs + [Post("series_db", newDoc)];
        var status := post("series_db", newDoc);
        if status == 201 {
          next := next.(series := next.series + 1);
          reqs := reqs + [Delete("peliculas_db", doc.id, doc.rev)];
          assert reqs == [Post("series_db", newDoc), Delete("peliculas_db", doc.id, doc.rev)];
        } else {
          next := next.(errores := next.errores + 1);
          assert reqs == [Post("series_db", newDoc)];
        }
      } else {
        assert RouteOf(doc) == StaysMovie;
        next := next.(peliculas := next.peliculas + 1);
      }
    } else {
      assert RouteOf(doc) == Ignored;
    }
  }

  // ---------------------------------------------------------------------------
  // Properties of a migration

  /** The number of documents no rule applies to. */
  function IgnoredCount(docs: seq<RawDoc>): (r: nat) {
    if docs == [] then 0
    else IgnoredCount(docs[..|docs| - 1]) + (if RouteOf(docs[|docs| - 1]) == Ignored then 1 else 0)
  }

  /**
   * Every routed document bumps exactly one counter and an ignored one none, so
   * the counters add up to the number of routed documents.
   */
  lemma {:induction false} MigratedCounts(docs: seq<RawDoc>, post: (string, RawDoc) -> int)
    ensures Total(Migrated(docs, post).0) + IgnoredCount(docs) == |docs|
    ensures Total(Migrated(docs, post).0) <= |docs|
  {
    if docs != [] {
      MigratedCounts(docs[..|docs| - 1], post);
    }
  }

  /** Every delete is of `peliculas_db`, right after a copy of the same document that answered 201. */
  predicate DeletesFollowCopies(log: seq<Request>, post: (string, RawDoc) -> int) {
    forall k :: 0 <= k < |log| && log[k].Delete? ==>
      && log[k].db == "peliculas_db"
      && k > 0 && log[k - 1].Post?
      && log[k - 1].doc.id == log[k].id
      && post(log[k - 1].db, log[k - 1].doc) == 201
  }

  /** Every copy carries no revision and goes to the database its route names. */
  predicate PostsRouted(log: seq<Request>) {
    forall k :: 0 <= k < |log| && log[k].Post? ==>
      && log[k].doc.rev.None?
      && (RouteOf(log[k].doc) == ToActores || RouteOf(log[k].doc) == ToSeries)
      && log[k].db == TargetDb(RouteOf(log[k].doc))
  }

  lemma DeletesFollowCopiesConcat(a: seq<Request>, b: seq<Request>, post: (string, RawDoc) -> int)
    requires DeletesFollowCopies(a, post) && DeletesFollowCopies(b, post)
    requires b != [] ==> b[0].Post?
    ensures DeletesFollowCopies(a + b, post)
  {
    var ab := a + b;
    forall k | 0 <= k < |ab| && ab[k].Delete?
      ensures ab[k].db == "peliculas_db" && k > 0 && ab[k - 1].Post? && ab[k - 1].doc.id == ab[k].id
      ensures post(ab[k - 1].db, ab[k - 1].doc) == 201
    {
      if k < |a| {
        assert ab[k] == a[k] && ab[k - 1] == a[k - 1];
      } else {
        assert ab[k] == b[k - |a|];
        assert k - |a| > 0;
        assert ab[k - 1] == b[k - |a| - 1];
      }
    }
  }

  lemma PostsRoutedConcat(a: seq<Request>, b: seq<Request>)
    requires PostsRouted(a) && PostsRouted(b)
    ensures PostsRouted(a + b)
  {
    var ab := a + b;
    forall k | 0 <= k < |ab| && ab[k].Post?
      ensures ab[k].doc.rev.None? && (RouteOf(ab[k].doc) == ToActores || RouteOf(ab[k].doc) == ToSeries)
      ensures ab[k].db == TargetDb(RouteOf(ab[k].doc))
    {
      if k < |a| {
        assert ab[k] == a[k];
      } else {
        assert ab[k] == b[k - |a|];
      }
    }
  }

  /**
   * Copy-then-delete: a source document is deleted only after its copy answered
   * 201, and copies only ever go to the database of their route.
   */
  lemma {:induction false} MigratedLogOrder(docs: seq<RawDoc>, post: (string, RawDoc) -> int)
    ensures DeletesFollowCopies(Migrated(docs, post).1, post)
    ensures PostsRouted(Migrated(docs, post).1)
  {
    if docs != [] {
      var init := docs[..|docs| - 1];
      MigratedLogOrder(init, post);
      var (stats, log) := Migrated(init, post);
      var reqs := Step(stats, docs[|docs| - 1], post).1;
      DeletesFollowCopiesConcat(log, reqs, post);
      PostsRoutedConcat(log, reqs);
    }
  }

  /** Ids are unique within the listing, as they are within a CouchDB database. */
  predicate UniqueIds(docs: seq<RawDoc>) {
    forall i, j :: 0 <= i < |docs| && 0 <= j < |docs| && docs[i].id == docs[j].id ==> i == j
  }

  /** A movie that stays in `peliculas_db` is never copied nor deleted. */
  lemma {:induction false} MoviesUntouched(docs: seq<RawDoc>, post: (string, RawDoc) -> int, movie: nat)
    requires movie < |docs| && UniqueIds(docs)
    requires RouteOf(docs[movie]) == StaysMovie
    ensures forall req :: req in Migrated(docs, post).1 ==> Subject(req) != docs[movie].id
  {
    var init := docs[..|docs| - 1];
    var last := docs[|docs| - 1];
    var (stats, log) := Migrated(init, post);
    var reqs := Step(stats, last, post).1;
    if movie == |docs| - 1 {
      forall k | 0 <= k < |init| ensures init[k].id != last.id {
        assert init[k] == docs[k];
      }
      MoviesAbsentFrom(init, post, last);
    } else {
      assert init[movie] == docs[movie];
      assert UniqueIds(init) by {
        forall i, j | 0 <= i < |init| && 0 <= j < |init| && init[i].id == init[j].id ensures i == j {
          assert init[i] == docs[i] && init[j] == docs[j];
        }
      }
      MoviesUntouched(init, post, movie);
      assert last.id != docs[movie].id;
    }
  }

  /** Requests are only ever about documents of the listing. */
  lemma {:induction false} MoviesAbsentFrom(docs: seq<RawDoc>, post: (string, RawDoc) -> int, other: RawDoc)
    requires forall k :: 0 <= k < |docs| ==> docs[k].id != other.id
    ensures forall req :: req in Migrated(docs, post).1 ==> Subject(req) != other.id
  {
    if docs != [] {
      var init := docs[..|docs| - 1];
      assert forall k :: 0 <= k < |init| ==> init[k] == docs[k];
      MoviesAbsentFrom(init, post, other);
      var (stats, log) := Migrated(init, post);
      var reqs := Step(stats, docs[|docs| - 1], post).1;
      forall req | req in log + reqs ensures Subject(req) != other.id {
        if req in reqs {
          var k :| 0 <= k < |reqs| && reqs[k] == req;
        }
      }
    }
  }
}

=== FILE: reports_page.dfy ===
/**
 * The reports page (src/app/pages/reports/reports.component.ts): tab switching,
 * the content edit form (loading a content into editable fields, turning the
 * comma-separated texts back into lists, adding and removing seasons), the
 * name-keyed update of the collaborator list, and the year shown for a date.
 * Signals are plain fields; the calls into other services are outputs of the
 * methods (what to request) or inputs (what the service answered).
 */
module ReportsPage {
  import opened Wrappers
  import opened Types
  import opened Text
  import Catalog

  /** A collaborator as the page lists it. */
  datatype ActorCollabInfo = ActorCollabInfo(
    name: string,
    count: int,
    person: Option<Person>,
    bio: Option<string>,
    image: Option<string>)

  /** The edit form's copy of a content. */
  datatype EditableContent = EditableContent(
    id: string,
    name: string,
    genres: seq<string>,
    premiered: string,
    awards: seq<string>,
    downloads: int,
    rating: Option<real>,
    contentType: ContentType,
    mainCastId: string,
    castIds: seq<string>,
    seasons: Option<seq<Season>>,
    videoUrl: string,
    image: string,
    summaryEs: string)

  datatype MessageKind = Success | Failure
  datatype SaveMessage = SaveMessage(kind: MessageKind, text: string)

  /** How `updateContent` ended. */
  datatype UpdateOutcome = Updated | NotUpdated | Threw

  // ---------------------------------------------------------------------------
  // Pure helpers

  /**
   * `[...(content.awards || [])]`: the list, or nothing for the empty text; a
   * non-empty text is spread into its characters.
   */
  function AwardsList(awards: Awards): (r: seq<string>)
    ensures awards.AwardList? ==> r == awards.items
    ensures awards.AwardText? ==> |r| == |awards.text|
    ensures awards.AwardText? ==> forall k :: 0 <= k < |r| ==> r[k] == [awards.text[k]]
  {
    match awards
    case AwardList(items) => items
    case AwardText(text) => seq(|text|, k requires 0 <= k < |text| => [text[k]])
  }

  /** The editable copy `loadContentForEdit` builds. */
  function EditableOf(content: Content): (e: EditableContent)
    ensures e.id == OrElse(content.id, "")
    ensures e.name == content.name && e.premiered == content.premiered
    ensures e.genres == content.genres && e.castIds == content.castIds && e.mainCastId == content.mainCastId
    ensures e.awards == AwardsList(content.awards)
    ensures e.downloads == content.downloads && e.rating == content.rating && e.contentType == content.contentType
    ensures e.seasons == content.seasons
    ensures content.video.None? ==> e.videoUrl == ""
    ensures content.video.Some? ==> e.videoUrl == OrElse(content.video.value.url, "")
    ensures e.image == OrElse(content.image, "")
    ensures e.summaryEs == ""
  {
    EditableContent(
      OrElse(content.id, ""),
      content.name,
      content.genres,
      content.premiered,
      AwardsList(content.awards),
      content.downloads,
      content.rating,
      content.contentType,
      content.mainCastId,
      content.castIds,
      content.seasons,
      if content.video.Some? then OrElse(content.video.value.url, "") else "",
      OrElse(content.image, ""),
      "")
  }

  /** `contents.find(c => c._id === id)`. */
  function FindContent(contents: seq<ContentPopulated>, id: string): (r: Option<ContentPopulated>)
    ensures r.None? <==> forall k :: 0 <= k < |contents| ==> contents[k].content.id != Some(id)
    ensures r.Some? ==>
      exists k :: 0 <= k < |contents| && contents[k] == r.value && r.value.content.id == Some(id) &&
        forall j :: 0 <= j < k ==> contents[j].content.id != Some(id)
  {
    if contents == [] then None
    else if contents[0].content.id == Some(id) then Some(contents[0])
    else
      var r := FindContent(contents[1..], id);
      assert forall k :: 1 <= k < |contents| ==> contents[k] == contents[1..][k - 1];
      if r.Some? then
        assert exists k :: 0 <= k < |contents| && contents[k] == r.value && r.value.content.id == Some(id) &&
                 forall j :: 0 <= j < k ==> contents[j].content.id != Some(id) by {
          var k :| 0 <= k < |contents[1..]| && contents[1..][k] == r.value && r.value.content.id == Some(id) &&
                   forall j :: 0 <= j < k ==> contents[1..][j].content.id != Some(id);
          forall j | 0 <= j < k + 1 ensures contents[j].content.id != Some(id) {
            if j > 0 { assert contents[j] == contents[1..][j - 1]; }
          }
        }
        r
      else r
  }

  /** The highest season number (`Math.max(...seasons.map(s => s.seasonNumber))`). */
  function MaxSeasonNumber(seasons: seq<Season>): (m: int)
    requires seasons != []
    ensures forall k :: 0 <= k < |seasons| ==> seasons[k].seasonNumber <= m
    ensures exists k :: 0 <= k < |seasons| && seasons[k].seasonNumber == m
  {
    if |seasons| == 1 then seasons[0].seasonNumber
    else
      var rest := MaxSeasonNumber(seasons[1..]);
      assert forall k :: 1 <= k < |seasons| ==> seasons[k] == seasons[1..][k - 1];
      if seasons[0].seasonNumber >= rest then seasons[0].seasonNumber else rest
  }

  /** The number `addSeason` gives the new season: one past the highest, or 1. */
  function NextSeasonNumber(seasons: seq<Season>): (n: int)
    ensures seasons == [] ==> n == 1
    ensures seasons != [] ==> n == MaxSeasonNumber(seasons) + 1
    ensures forall k :: 0 <= k < |seasons| ==> seasons[k].seasonNumber < n
  {
    if |seasons| > 0 then MaxSeasonNumber(seasons) + 1 else 1
  }

  /** No two seasons share a number. */
  predicate DistinctNumbers(seasons: seq<Season>) {
    forall i, j :: 0 <= i < j < |seasons| ==> seasons[i].seasonNumber != seasons[j].seasonNumber
  }

  /** `(seasons || [])` with one season of ten episodes pushed, numbered after the others. */
  function WithSeasonAdded(seasons: Option<seq<Season>>): (r: seq<Season>)
    ensures |r| == |seasons.GetOr([])| + 1
    ensures r[..|r| - 1] == seasons.GetOr([])
    ensures r[|r| - 1] == Season(NextSeasonNumber(seasons.GetOr([])), 10)
    ensures DistinctNumbers(seasons.GetOr([])) ==> DistinctNumbers(r)
  {
    var prior := seasons.GetOr([]);
    var r := prior + [Season(NextSeasonNumber(prior), 10)];
    assert r[..|r| - 1] == prior;
    r
  }

  /**
   * `xs.splice(index, 1)` on a copy: a negative index counts from the end
   * (clamped to 0), and an index at or past the end removes nothing.
   */
  function SpliceOne<T>(xs: seq<T>, index: int): (r: seq<T>)
    ensures 0 <= index < |xs| ==> r == xs[..index] + xs[index + 1..]
    ensures index >= |xs| ==> r == xs
    ensures -|xs| <= index < 0 ==> r == xs[..|xs| + index] + xs[|xs| + index + 1..]
    ensures index < -|xs| && xs != [] ==> r == xs[1..]
    ensures |r| == if xs != [] && index < |xs| then |xs| - 1 else |xs|
  {
    var start := if index < 0 then (if |xs| + index < 0 then 0 else |xs| + index) else (if index > |xs| then |xs| else index);
    if start < |xs| then xs[..start] + xs[start + 1..] else xs
  }

  /**
   * Removing a season by a valid index keeps every other season, in order.
   * A documented property of `SpliceOne`; it follows from the definition.
   */
  lemma SpliceOneKeepsOthers<T>(xs: seq<T>, index: int)
    requires 0 <= index < |xs|
    ensures forall k :: 0 <= k < index ==> SpliceOne(xs, index)[k] == xs[k]
    ensures forall k :: index < k < |xs| ==> SpliceOne(xs, index)[k - 1] == xs[k]
  {
  }

  /** `list.map(a => a.name === name ? updated : a)`. */
  function ReplaceByName(list: seq<ActorCollabInfo>, name: string, updated: ActorCollabInfo): (r: seq<ActorCollabInfo>)
    ensures |r| == |list|
    ensures forall k :: 0 <= k < |r| ==> r[k] == if list[k].name == name then updated else list[k]
  {
    seq(|list|, k requires 0 <= k < |list| => if list[k].name == name then updated else list[k])
  }

  /**
   * Replacing with an entry of the same name a second time changes nothing:
   * every entry under that name already is the replacement.
   * A documented property of `ReplaceByName`; it follows from the definition.
   */
  lemma ReplaceByNameIdempotent(list: seq<ActorCollabInfo>, updated: ActorCollabInfo)
    ensures var once := ReplaceByName(list, updated.name, updated);
      ReplaceByName(once, updated.name, updated) == once
  {
  }

  /** `premiered ? premiered.split('-')[0] : 'N/A'`. */
  function GetYear(premiered: Option<string>): (r: string)
    ensures !Present(premiered) ==> r == "N/A"
    ensures Present(premiered) ==> |r| <= |premiered.value| && r == premiered.value[..|r|] && '-' !in r
    ensures Present(premiered) ==> |r| == |premiered.value| || premiered.value[|r|] == '-'
  {
    YearOf(premiered, "N/A")
  }

  /**
   * What the edit form gives back for a loaded content when its texts are saved
   * untouched: the genres and the cast come back as they were, provided their
   * entries are non-empty, trimmed and comma-free.
   */
  lemma {:induction false} EditRoundTrip(content: Content)
    requires forall k :: 0 <= k < |content.genres| ==> ListEntry(content.genres[k])
    requires forall k :: 0 <= k < |content.castIds| ==> ListEntry(content.castIds[k])
    ensures ParseList(Join(EditableOf(content).genres, ", ")) == content.genres
    ensures ParseList(Join(EditableOf(content).castIds, ", ")) == content.castIds
  {
    ParseJoinRoundTrip(content.genres);
    ParseJoinRoundTrip(content.castIds);
  }

  /**
   * The content `saveContentChanges` sends: the genre, award and cast texts are
   * parsed back into their lists, whose entries are then non-empty, trimmed and
   * comma-free; every other field is as it was.
   */
  function WithTexts(e: EditableContent, genresText: string, awardsText: string, castIdsText: string): (r: EditableContent)
    ensures r == e.(genres := r.genres, awards := r.awards, castIds := r.castIds)
    ensures r.genres == ParseList(genresText) && r.awards == ParseList(awardsText) && r.castIds == ParseList(castIdsText)
    ensures forall k :: 0 <= k < |r.genres| ==> ListEntry(r.genres[k])
    ensures forall k :: 0 <= k < |r.awards| ==> ListEntry(r.awards[k])
    ensures forall k :: 0 <= k < |r.castIds| ==> ListEntry(r.castIds[k])
  {
    ParseListEntries(genresText);
    ParseListEntries(awardsText);
    ParseListEntries(castIdsText);
    e.(genres := ParseList(genresText), awards := ParseList(awardsText), castIds := ParseList(castIdsText))
  }

  /** The message shown once `updateContent` has ended. */
  function MessageFor(outcome: UpdateOutcome): (m: SaveMessage)
    ensures m.kind == Success <==> outcome == Updated
  {
    match outcome
    case Updated => SaveMessage(Success, "¡Cambios guardados correctamente!")
    case NotUpdated => SaveMessage(Failure, "Error al guardar los cambios.")
    case Threw => SaveMessage(Failure, "Error inesperado al guardar.")
  }

  // ---------------------------------------------------------------------------
  // The page

  class ReportsComponent {
    const catalog: Catalog.CatalogService

    var activeTab: string
    var reportResults: seq<ContentPopulated>
    var collabResults: seq<ActorCollabInfo>
    var selectedEditId: string
    var editingContent: Option<EditableContent>
    var isSaving: bool
    var saveMessage: Option<SaveMessage>
    var editGenresText: string
    var editAwardsText: string
    var editCastIdsText: string
    var selectedActor: Option<ActorCollabInfo>
    var isLoadingActorBio: bool
    var actorImageUrl: string

    constructor (catalog: Catalog.CatalogService)
      ensures this.catalog == catalog
      ensures activeTab == "dates" && reportResults == [] && collabResults == []
      ensures selectedEditId == "" && editingContent.None? && saveMessage.None? && !isSaving
      ensures selectedActor.None? && actorImageUrl == ""
    {
      this.catalog := catalog;
      activeTab := "dates";
      reportResults := [];
      collabResults := [];
      selectedEditId := "";
      editingContent := None;
      isSaving := false;
      saveMessage := None;
      editGenresText := "";
      editAwardsText := "";
      editCastIdsText := "";
      selectedActor := None;
      isLoadingActorBio := false;
      actorImageUrl := "";
    }

    /**
     * `setTab`: shows the tab and clears every result, the content being edited
     * and the save message; entering the downloads tab runs its report.
     */
    method SetTab(id: string) returns (runsDownloadsReport: bool)
      modifies this`activeTab, this`reportResults, this`collabResults, this`editingContent, this`saveMessage
      ensures activeTab == id
      ensures reportResults == [] && collabResults == [] && editingContent.None? && saveMessage.None?
      ensures runsDownloadsReport <==> id == "downloads"
    {
      activeTab := id;
      reportResults := [];
      collabResults := [];
      editingContent := None;
      saveMessage := None;
      runsDownloadsReport := id == "downloads";
    }

    /**
     * `loadContentForEdit`: no selection clears the form; an id no content has
     * leaves everything as it was; otherwise the first content with that id is
     * copied into the form and its lists are written out joined by ", ".
     */
    method LoadContentForEdit()
      modifies this`editingContent, this`editGenresText, this`editAwardsText, this`editCastIdsText, this`saveMessage
      ensures old(selectedEditId) == "" ==> editingContent.None?
      ensures old(selectedEditId) == "" ==>
                saveMessage == old(saveMessage) && editGenresText == old(editGenresText) &&
                editAwardsText == old(editAwardsText) && editCastIdsText == old(editCastIdsText)
      ensures old(selectedEditId) != "" && FindContent(catalog.contents, selectedEditId).None? ==>
                editingContent == old(editingContent) && saveMessage == old(saveMessage) &&
                editGenresText == old(editGenresText) && editAwardsText == old(editAwardsText) &&
                editCastIdsText == old(editCastIdsText)
      ensures old(selectedEditId) != "" && FindContent(catalog.contents, selectedEditId).Some? ==>
                var e := EditableOf(FindContent(catalog.contents, selectedEditId).value.content);
                && editingContent == Some(e)
                && editGenresText == Join(e.genres, ", ")
                && editAwardsText == Join(e.awards, ", ")
                && editCastIdsText == Join(e.castIds, ", ")
                && saveMessage.None?
    {
      var found := FindContent(catalog.contents, selectedEditId);
      if selectedEditId == "" {
        editingContent := None;
      } else if found.Some? {
        var editable := EditableOf(found.value.content);
        editingContent := Some(editable);
        editGenresText := Join(editable.genres, ", ");
        editAwardsText := Join(editable.awards, ", ");
        editCastIdsText := Join(editable.castIds, ", ");
        saveMessage := None;
      }
    }

    /**
     * The end of `saveContentChanges` once `updateContent` has ended: the message
     * for the outcome is shown, saving stops, and only a successful update
     * refreshes the catalog.
     */
    method EndSave(outcome: UpdateOutcome) returns (refreshes: bool)
      modifies this`isSaving, this`saveMessage
      ensures !isSaving && saveMessage == Some(MessageFor(outcome))
      ensures saveMessage.value.kind == Success <==> outcome == Updated
      ensures refreshes <==> outcome == Updated
    {
      saveMessage := Some(MessageFor(outcome));
      refreshes := outcome == Updated;
      isSaving := false;
    }

    /**
     * `saveContentChanges`: the three texts are parsed back into the lists of the
     * content being edited, which is then sent for update (`outcome` is how that
     * ended); returns whether the catalog is refreshed.
     */
    method SaveContentChanges(outcome: UpdateOutcome) returns (refreshes: bool)
      modifies this`editingContent, this`isSaving, this`saveMessage
      ensures old(editingContent).None? ==> !refreshes && editingContent.None?
      ensures old(editingContent).None? ==> saveMessage == old(saveMessage) && isSaving == old(isSaving)
      ensures old(editingContent).Some? ==>
                editingContent == Some(WithTexts(old(editingContent).value, old(editGenresText), old(editAwardsText), old(editCastIdsText)))
      ensures old(editingContent).Some? ==> !isSaving && saveMessage.Some?
      ensures old(editingContent).Some? ==> (saveMessage.value.kind == Success <==> outcome == Updated)
      ensures refreshes <==> old(editingContent).Some? && outcome == Updated
    {
      refreshes := false;
      if editingContent.Some? {
        isSaving := true;
        saveMessage := None;
        editingContent := Some(WithTexts(editingContent.value, editGenresText, editAwardsText, editCastIdsText));
        refreshes := EndSave(outcome);
      }
    }

    /** `addSeason`: appends one season of ten episodes numbered after the others. */
    method AddSeason()
      modifies this`editingContent
      ensures old(editingContent).None? ==> editingContent.None?
      ensures old(editingContent).Some? ==>
                editingContent == Some(old(editingContent).value.(seasons := Some(WithSeasonAdded(old(editingContent).value.seasons))))
    {
      if editingContent.None? {
        return;
      }
      var editable := editingContent.value;
      var seasons := editable.seasons.GetOr([]);
      var nextNum := if |seasons| > 0 then MaxSeasonNumber(seasons) + 1 else 1;
      seasons := seasons + [Season(nextNum, 10)];
      editingContent := Some(editable.(seasons := Some(seasons)));
    }

    /** `removeSeason`: the season list with `splice(index, 1)` applied; nothing without seasons. */
    method RemoveSeason(index: int)
      modifies this`editingContent
      ensures old(editingContent).None? || old(editingContent).value.seasons.None? ==>
                editingContent == old(editingContent)
      ensures old(editingContent).Some? && old(editingContent).value.seasons.Some? ==>
                editingContent == Some(old(editingContent).value.(seasons := Some(SpliceOne(old(editingContent).value.seasons.value, index))))
    {
      if editingContent.None? || editingContent.value.seasons.None? {
        return;
      }
      var editable := editingContent.value;
      var seasons := SpliceOne(editable.seasons.value, index);
      editingContent := Some(editable.(seasons := Some(seasons)));
    }

    /**
     * `openActorDetail`: shows the actor; when it has no biography but a name,
     * one is asked for (`bio` is the answer, none if the request failed) and, on
     * success, stored on the shown actor and on every list entry of that name.
     * Returns whether a biography was asked for.
     */
    method OpenActorDetail(actor: ActorCollabInfo, bio: Option<string>) returns (asksBio: bool)
      modifies this`selectedActor, this`actorImageUrl, this`isLoadingActorBio, this`collabResults
      ensures asksBio <==> !Present(actor.bio) && actor.name != ""
      ensures actorImageUrl == OrElse(actor.image, if actor.person.Some? then OrElse(actor.person.value.image, "") else "")
      ensures asksBio && bio.Some? ==> selectedActor == Some(actor.(bio := bio))
      ensures asksBio && bio.Some? ==> collabResults == ReplaceByName(old(collabResults), actor.name, actor.(bio := bio))
      ensures !(asksBio && bio.Some?) ==> selectedActor == Some(actor) && collabResults == old(collabResults)
      ensures asksBio ==> !isLoadingActorBio
      ensures !asksBio ==> isLoadingActorBio == old(isLoadingActorBio)
    {
      selectedActor := Some(actor);
      actorImageUrl := OrElse(actor.image, if actor.person.Some? then OrElse(actor.person.value.image, "") else "");
      asksBio := !Present(actor.bio) && actor.name != "";
      if asksBio {
        isLoadingActorBio := true;
        if bio.Some? {
          var updated := actor.(bio := bio);
          selectedActor := Some(updated);
          collabResults := ReplaceByName(collabResults, actor.name, updated);
        }
        isLoadingActorBio := false;
      }
    }

    /**
     * `saveActorImage`: with an actor shown and a non-blank image address, stores
     * the address on the shown actor and on every list entry of that name, and
     * returns the person whose image is to be updated, when the actor has one.
     */
    method SaveActorImage() returns (personToUpdate: Option<string>)
      modifies this`selectedActor, this`collabResults
      ensures old(selectedActor).None? || Trim(actorImageUrl) == "" ==>
                selectedActor == old(selectedActor) && collabResults == old(collabResults) && personToUpdate.None?
      ensures old(selectedActor).Some? && Trim(actorImageUrl) != "" ==>
                var updated := old(selectedActor).value.(image := Some(actorImageUrl));
                && selectedActor == Some(updated)
                && collabResults == ReplaceByName(old(collabResults), updated.name, updated)
      ensures personToUpdate.Some? ==>
                old(selectedActor).Some? && old(selectedActor).value.person.Some? &&
                Present(old(selectedActor).value.person.value.id) &&
                personToUpdate == old(selectedActor).value.person.value.id
      ensures (old(selectedActor).Some? && Trim(actorImageUrl) != "" && old(selectedActor).value.person.Some? &&
               Present(old(selectedActor).value.person.value.id)) ==> personToUpdate.Some?
    {
      personToUpdate := None;
      if selectedActor.None? || Trim(actorImageUrl) == "" {
        return;
      }
      var actor := selectedActor.value;
      var updated := actor.(image := Some(actorImageUrl));
      selectedActor := Some(updated);
      collabResults := ReplaceByName(collabResults, actor.name, updated);
      if actor.person.Some? && Present(actor.person.value.id) {
        personToUpdate := actor.person.value.id;
      }
    }

    method CloseActorDetail()
      modifies this`selectedActor, this`actorImageUrl
      ensures selectedActor.None? && actorImageUrl == ""
    {
      selectedActor := None;
      actorImageUrl := "";
    }
  }
}

=== FILE: reports_service.dfy ===
/**
 * The reports service (src/services/reports.service.ts): the queries it sends
 * and what it makes of the answers. The database itself is not modelled; where a
 * property depends on what the database answers, the answer is an input and the
 * lemma states what it requires of that answer.
 */
module ReportsService {
  import opened Wrappers
  import opened Types
  import opened Text
  import opened Couch
  import Setup
  import Catalog

  /** The design document the service queries. */
  const DESIGN_DOC: string := "streaming"

  // ---------------------------------------------------------------------------
  // 1. Contents premiered in a period (a Mango query)

  datatype SortOrder = Asc | Desc

  /** `{ type, premiered: { $gte, $lte } }` with the sort `[{ premiered: 'asc' }]`. */
  datatype DateRangeQuery = DateRangeQuery(docType: string, gte: string, lte: string, sortField: string, order: SortOrder)

  function GetByDateRange(start: string, end: string): (q: DateRangeQuery)
    ensures q.docType == "content" && q.sortField == "premiered" && q.order == Asc
    ensures q.gte == start && q.lte == end
  {
    DateRangeQuery("content", start, end, "premiered", Asc)
  }

  /** The documents the selector matches: type equal, and the sort field within the bounds. */
  predicate Admits(q: DateRangeQuery, doc: RawDoc) {
    && doc.docType == Some(q.docType)
    && doc.premiered.Some?
    && LexLe(q.gte, doc.premiered.value)
    && LexLe(doc.premiered.value, q.lte)
  }

  /** The period query admits exactly the contents premiered between `start` and `end`, both included. */
  lemma DateRangeAdmits(start: string, end: string, doc: RawDoc)
    ensures Admits(GetByDateRange(start, end), doc) <==>
              IsContent(doc) && doc.premiered.Some? && LexLe(start, doc.premiered.value) && LexLe(doc.premiered.value, end)
  {
  }

  /** A period that ends before it starts admits nothing. */
  lemma {:induction false} DateRangeEmpty(start: string, end: string, doc: RawDoc)
    requires LexLess(end, start)
    ensures !Admits(GetByDateRange(start, end), doc)
  {
    if Admits(GetByDateRange(start, end), doc) {
      var p := doc.premiered.value;
      LexLeTransitive(start, p, end);
      if start == end {
        LexLessIrreflexive(end);
      } else {
        LexLessAsymmetric(end, start);
      }
    }
  }

  /**
   * With a non-empty start, every admitted document is also in the
   * `by_releaseDate` view, under its premiere date.
   */
  lemma DateRangeInReleaseView(start: string, end: string, doc: RawDoc)
    requires start != ""
    requires Admits(GetByDateRange(start, end), doc)
    ensures Setup.ByReleaseDate(doc) == [Row(StrKey(doc.premiered.value), NullValue)]
  {
    assert doc.premiered.value != "";
  }

  /** Premiere dates never decrease along the answer. */
  predicate AscendingPremiere(docs: seq<RawDoc>) {
    forall i, j :: 0 <= i < j < |docs| && docs[i].premiered.Some? && docs[j].premiered.Some? ==>
      LexLe(docs[i].premiered.value, docs[j].premiered.value)
  }

  /**
   * What the database answers to a period query: admitted documents only, in
   * ascending premiere order. `res.docs` is returned as it comes.
   */
  predicate AnswersDateRange(q: DateRangeQuery, docs: seq<RawDoc>) {
    (forall d :: d in docs ==> Admits(q, d)) && AscendingPremiere(docs)
  }

  /** Every content of an answer to a period query lies in the period, and the answer is in date order. */
  lemma DateRangeAnswer(start: string, end: string, docs: seq<RawDoc>)
    requires AnswersDateRange(GetByDateRange(start, end), docs)
    ensures forall d :: d in docs ==> IsContent(d) && LexLe(start, d.premiered.value) && LexLe(d.premiered.value, end)
    ensures forall i, j :: 0 <= i < j < |docs| ==> LexLe(docs[i].premiered.value, docs[j].premiered.value)
  {
    forall i, j | 0 <= i < j < |docs|
      ensures docs[i].premiered.Some? && docs[j].premiered.Some? && LexLe(docs[i].premiered.value, docs[j].premiered.value)
    {
      assert docs[i] in docs && docs[j] in docs;
    }
  }

  // ---------------------------------------------------------------------------
  // 2. Most downloaded contents (view `by_downloads`)

  /** `{ descending, limit, include_docs }` on the named view. */
  datatype TopDownloadsQuery = TopDownloadsQuery(design: string, view: string, descending: bool, limit: int, includeDocs: bool)

  /** `getTopDownloads(limit = 10)`: descending order, `limit` rows, documents included. */
  function GetTopDownloads(limit: Option<int>): (q: TopDownloadsQuery)
    ensures q.view == "by_downloads" && q.design == DESIGN_DOC
    ensures q.descending && q.includeDocs
    ensures limit.None? ==> q.limit == 10
    ensures limit.Some? ==> q.limit == limit.value
  {
    TopDownloadsQuery(DESIGN_DOC, "by_downloads", true, limit.GetOr(10), true)
  }

  /** A view row with its document (`include_docs`). */
  datatype DocRow = DocRow(key: Key, doc: RawDoc)

  /** `rows.map(r => r.doc)`. */
  function DocsOf(rows: seq<DocRow>): (r: seq<RawDoc>)
    ensures |r| == |rows|
    ensures forall k :: 0 <= k < |r| ==> r[k] == rows[k].doc
  {
    seq(|rows|, k requires 0 <= k < |rows| => rows[k].doc)
  }

  /**
   * What the database answers to the top-downloads query: at most `limit` rows
   * of the `by_downloads` index, by descending key.
   */
  predicate AnswersTopDownloads(q: TopDownloadsQuery, rows: seq<DocRow>) {
    && |rows| <= q.limit
    && (forall k :: 0 <= k < |rows| ==> Row(rows[k].key, NullValue) in Setup.ByDownloads(rows[k].doc))
    && (forall i, j :: 0 <= i < j < |rows| && rows[i].key.NumKey? && rows[j].key.NumKey? ==> rows[i].key.n >= rows[j].key.n)
  }

  /**
   * The documents returned for the top-downloads query are at most `limit`
   * contents with a numeric download count, most downloaded first.
   */
  lemma TopDownloadsDocs(limit: Option<int>, rows: seq<DocRow>)
    requires AnswersTopDownloads(GetTopDownloads(limit), rows)
    ensures var docs := DocsOf(rows);
      && |docs| <= limit.GetOr(10)
      && (forall k :: 0 <= k < |docs| ==> IsContent(docs[k]) && docs[k].downloads.Some?)
      && (forall i, j :: 0 <= i < j < |docs| ==> docs[i].downloads.value >= docs[j].downloads.value)
  {
    var docs := DocsOf(rows);
    forall k | 0 <= k < |docs| ensures IsContent(docs[k]) && docs[k].downloads.Some? && rows[k].key == NumKey(docs[k].downloads.value) {
      assert Setup.ByDownloads(rows[k].doc) != [];
    }
  }

  // ---------------------------------------------------------------------------
  // 5. Collaborators (view `collaborations`, grouped)

  /**
   * `{ startkey: [actorId, ""], endkey: [actorId, {}], group: true }`. The `{}`
   * of the end key sorts after every string, so the end key is fixed by its actor.
   */
  datatype CollabQuery = CollabQuery(design: string, view: string, startActor: string, startCollab: string, endActor: string, group: bool)

  function GetCollaboratorsQuery(actorId: string): (q: CollabQuery)
    ensures q.view == "collaborations" && q.design == DESIGN_DOC && q.group
    ensures q.startActor == actorId && q.endActor == actorId && q.startCollab == ""
  {
    CollabQuery(DESIGN_DOC, "collaborations", actorId, "", actorId, true)
  }

  /** A grouped row `{ key: [actorId, collabId], value: count }`. */
  datatype CollabRow = CollabRow(actor: string, collab: string, count: int)

  datatype Collaborator = Collaborator(name: string, count: int)

  /**
   * What is left to do once the view answered: nothing for an empty answer,
   * otherwise fetch the persons to name the collaborators.
   */
  datatype CollabPlan = Finished(result: seq<Collaborator>) | LookupPersons(collabIds: seq<string>, counts: seq<int>)

  function AfterView(rows: seq<CollabRow>): (r: CollabPlan)
    ensures rows == [] <==> r == Finished([])
    ensures rows != [] ==> r.LookupPersons? && |r.collabIds| == |rows| && |r.counts| == |rows|
    ensures r.LookupPersons? ==> forall k :: 0 <= k < |rows| ==> r.collabIds[k] == rows[k].collab && r.counts[k] == rows[k].count
  {
    if rows == [] then Finished([])
    else
      LookupPersons(seq(|rows|, k requires 0 <= k < |rows| => rows[k].collab),
                    seq(|rows|, k requires 0 <= k < |rows| => rows[k].count))
  }

  /** `person ? person.fullName : 'Desconocido'` for the first person with that id. */
  function NameOf(persons: seq<Person>, id: string): (r: string)
    ensures !Catalog.Known(persons, id) ==> r == "Desconocido"
    ensures Catalog.Known(persons, id) ==>
              exists k :: 0 <= k < |persons| && persons[k].id == Some(id) && r == persons[k].fullName &&
                forall j :: 0 <= j < k ==> persons[j].id != Some(id)
  {
    match Catalog.FindPerson(persons, id)
    case Some(p) => p.fullName
    case None => "Desconocido"
  }

  /** `collabIds.map((id, idx) => ({ name, count: counts[idx] }))`. */
  function NameCollaborators(collabIds: seq<string>, counts: seq<int>, persons: seq<Person>): (r: seq<Collaborator>)
    requires |collabIds| == |counts|
    ensures |r| == |collabIds|
    ensures forall k :: 0 <= k < |r| ==> r[k] == Collaborator(NameOf(persons, collabIds[k]), counts[k])
  {
    seq(|collabIds|, k requires 0 <= k < |collabIds| => Collaborator(NameOf(persons, collabIds[k]), counts[k]))
  }

  /** `getCollaborators` once the view (and, if asked for, the person listing) answered. */
  function GetCollaborators(rows: seq<CollabRow>, persons: seq<Person>): (r: seq<Collaborator>)
    ensures |r| == |rows|
    ensures forall k :: 0 <= k < |r| ==> r[k].count == rows[k].count
    ensures forall k :: 0 <= k < |r| ==> r[k].name == NameOf(persons, rows[k].collab)
  {
    match AfterView(rows)
    case Finished(result) => result
    case LookupPersons(ids, counts) => NameCollaborators(ids, counts, persons)
  }

  /**
   * An empty view answer gives no collaborators, whatever the persons.
   * A documented property of the collaborators query; it follows from the definition.
   */
  lemma CollaboratorsEmpty(persons: seq<Person>)
    ensures GetCollaborators([], persons) == []
    ensures AfterView([]).Finished?
  {
  }

  // ---------------------------------------------------------------------------
  // Every genre (view `by_genre`, not reduced)

  /** Non-decreasing in code-unit order. */
  predicate Sorted(s: seq<string>) {
    forall i, j :: 0 <= i < j < |s| ==> LexLe(s[i], s[j])
  }

  /** `x` put in front of the first element of `s` that is not below it. */
  function Insert(s: seq<string>, x: string): (r: seq<string>)
    ensures multiset(r) == multiset(s) + multiset{x}
  {
    if s == [] then [x]
    else if LexLe(x, s[0]) then [x] + s
    else
      assert s == [s[0]] + s[1..];
      [s[0]] + Insert(s[1..], x)
  }

  /** Every element of `s` is at least `b`. */
  predicate AllAtLeast(b: string, s: seq<string>) {
    forall k :: 0 <= k < |s| ==> LexLe(b, s[k])
  }

  /** The tail of a sorted list is sorted and bounded below by its head. */
  lemma SortedTail(s: seq<string>)
    requires Sorted(s) && s != []
    ensures Sorted(s[1..]) && AllAtLeast(s[0], s[1..])
  {
    forall i, j | 0 <= i < j < |s[1..]| ensures LexLe(s[1..][i], s[1..][j]) {
      assert s[1..][i] == s[i + 1] && s[1..][j] == s[j + 1];
    }
    forall k | 0 <= k < |s[1..]| ensures LexLe(s[0], s[1..][k]) {
      assert s[1..][k] == s[k + 1];
    }
  }

  /** A sorted list with a lower bound in front of it is sorted. */
  lemma ConsSorted(h: string, t: seq<string>)
    requires Sorted(t) && AllAtLeast(h, t)
    ensures Sorted([h] + t)
  {
    var r := [h] + t;
    forall i, j | 0 <= i < j < |r| ensures LexLe(r[i], r[j]) {
      assert r[j] == t[j - 1];
      if i > 0 { assert r[i] == t[i - 1]; }
    }
  }

  /** Inserting a value above a lower bound keeps the bound. */
  lemma InsertAtLeast(s: seq<string>, x: string, b: string)
    requires AllAtLeast(b, s) && LexLe(b, x)
    ensures AllAtLeast(b, Insert(s, x))
  {
    var r := Insert(s, x);
    forall k | 0 <= k < |r| ensures LexLe(b, r[k]) {
      assert r[k] in multiset(r);
      if r[k] != x {
        assert r[k] in multiset(s);
        var m :| 0 <= m < |s| && s[m] == r[k];
      }
    }
  }

  /** Inserting into a sorted list keeps it sorted. */
  lemma {:induction false} InsertSorted(s: seq<string>, x: string)
    requires Sorted(s)
    ensures Sorted(Insert(s, x))
  {
    if s == [] {
    } else if LexLe(x, s[0]) {
      SortedTail(s);
      forall k | 0 <= k < |s| ensures LexLe(x, s[k]) {
        if k > 0 {
          assert s[k] == s[1..][k - 1];
          LexLeTransitive(x, s[0], s[k]);
        }
      }
      ConsSorted(x, s);
    } else {
      SortedTail(s);
      InsertSorted(s[1..], x);
      LexLessTotal(x, s[0]);
      InsertAtLeast(s[1..], x, s[0]);
      ConsSorted(s[0], Insert(s[1..], x));
    }
  }

  /** The tail of a list without duplicates has none either. */
  lemma NoDupTail(s: seq<string>)
    requires Catalog.NoDup(s) && s != []
    ensures Catalog.NoDup(s[1..]) && s[0] !in s[1..]
  {
    forall i, j | 0 <= i < j < |s[1..]| ensures s[1..][i] != s[1..][j] {
      assert s[1..][i] == s[i + 1] && s[1..][j] == s[j + 1];
    }
    forall k | 0 <= k < |s[1..]| ensures s[1..][k] != s[0] {
      assert s[1..][k] == s[k + 1];
    }
  }

  /** A new value in front of a list without duplicates. */
  lemma ConsNoDup(h: string, t: seq<string>)
    requires Catalog.NoDup(t) && h !in t
    ensures Catalog.NoDup([h] + t)
  {
    var r := [h] + t;
    forall i, j | 0 <= i < j < |r| ensures r[i] != r[j] {
      assert r[j] == t[j - 1];
      if i > 0 { assert r[i] == t[i - 1]; }
    }
  }

  /** Inserting a new value into a list without duplicates keeps it without duplicates. */
  lemma {:induction false} InsertNoDup(s: seq<string>, x: string)
    requires Sorted(s) && Catalog.NoDup(s) && x !in s
    ensures Catalog.NoDup(Insert(s, x))
  {
    if s == [] {
    } else if LexLe(x, s[0]) {
      ConsNoDup(x, s);
    } else {
      SortedTail(s);
      NoDupTail(s);
      InsertNoDup(s[1..], x);
      var rest := Insert(s[1..], x);
      assert s[0] !in rest by {
        assert s[0] != x;
        assert s[0] !in multiset(rest);
      }
      ConsNoDup(s[0], rest);
    }
  }

  /** `Array.prototype.sort()` on strings: sorted in code-unit order, a permutation of the input. */
  method SortKeys(xs: seq<string>) returns (r: seq<string>)
    ensures Sorted(r)
    ensures multiset(r) == multiset(xs)
    ensures Catalog.NoDup(xs) ==> Catalog.NoDup(r)
  {
    r := [];
    for i := 0 to |xs|
      invariant Sorted(r)
      invariant multiset(r) == multiset(xs[..i])
      invariant Catalog.NoDup(xs) ==> Catalog.NoDup(r)
    {
      assert xs[..i + 1] == xs[..i] + [xs[i]];
      if Catalog.NoDup(xs) {
        assert xs[i] !in r by {
          assert xs[i] !in xs[..i] by {
            forall m | 0 <= m < i ensures xs[..i][m] != xs[i] {
              assert xs[..i][m] == xs[m];
            }
          }
          assert xs[i] !in multiset(xs[..i]);
        }
        InsertNoDup(r, xs[i]);
      }
      InsertSorted(r, xs[i]);
      r := Insert(r, xs[i]);
    }
    assert xs[..|xs|] == xs;
  }

  /**
   * `getAllGenres`: every key of the view once, in code-unit order. The keys go
   * through a `Set` in view order, which is then listed and sorted.
   */
  method GetAllGenres(keys: seq<string>) returns (r: seq<string>)
    ensures forall i, j :: 0 <= i < j < |r| ==> LexLess(r[i], r[j])
    ensures forall g :: g in r <==> g in keys
  {
    var genres: seq<string> := [];
    for i := 0 to |keys|
      invariant genres == Catalog.Dedup(keys[..i])
    {
      assert keys[..i + 1][..i] == keys[..i];
      if keys[i] !in genres {
        genres := genres + [keys[i]];
      }
    }
    assert keys[..|keys|] == keys;
    r := SortKeys(genres);
    forall i, j | 0 <= i < j < |r| ensures LexLess(r[i], r[j]) {
      assert LexLe(r[i], r[j]) && r[i] != r[j];
    }
    forall g ensures g in r <==> g in keys {
      assert g in r <==> g in multiset(genres);
    }
  }
}

=== FILE: search.dfy ===
/**
 * The search page's pure helpers (src/app/pages/search/search.component.ts): the
 * content-id slug, the local genre translation, the summary shown for a show, the
 * payload built when a show is imported into the catalog, and the watchlist
 * toggle of the result cards.
 */
module Search {
  import opened Wrappers
  import opened Types
  import opened Text
  import Watchlist
  import Storage

  // ---------------------------------------------------------------------------
  // The slug: toLowerCase, NFD with combining marks removed, [^a-z0-9\s] removed,
  // trim, and every run of white space replaced by one '_'.

  /** `toLowerCase` on ASCII and on the Latin-1 capitals (other characters are kept). */
  function ToLower(c: char): char {
    if 'A' <= c <= 'Z' || ('\U{00C0}' <= c <= '\U{00DE}' && c != '\U{00D7}') then
      (c as int + 32) as char
    else c
  }

  /** The base letter NFD leaves once the combining marks are removed (Latin-1 small letters). */
  function Base(c: char): char {
    if '\U{00E0}' <= c <= '\U{00E5}' then 'a'
    else if c == '\U{00E7}' then 'c'
    else if '\U{00E8}' <= c <= '\U{00EB}' then 'e'
    else if '\U{00EC}' <= c <= '\U{00EF}' then 'i'
    else if c == '\U{00F1}' then 'n'
    else if '\U{00F2}' <= c <= '\U{00F6}' then 'o'
    else if '\U{00F9}' <= c <= '\U{00FC}' then 'u'
    else if c == '\U{00FD}' || c == '\U{00FF}' then 'y'
    else c
  }

  predicate AlphaNum(c: char) {
    'a' <= c <= 'z' || '0' <= c <= '9'
  }

  /** What one input character becomes before trimming: a letter, a digit, white space, or nothing. */
  function Fold(c: char): (r: string)
    ensures |r| <= 1
    ensures forall k :: 0 <= k < |r| ==> AlphaNum(r[k]) || IsSpace(r[k])
  {
    var b := Base(ToLower(c));
    if AlphaNum(b) || IsSpace(b) then [b] else []
  }

  /** The name after lower-casing, accent stripping and removal of the other characters. */
  function Filtered(s: string): (r: string)
    ensures forall k :: 0 <= k < |r| ==> AlphaNum(r[k]) || IsSpace(r[k])
  {
    if s == [] then [] else Fold(s[0]) + Filtered(s[1..])
  }

  /**
   * `replace(/\s+/g, '_')`: each maximal run of white space becomes one '_', written
   * at the run's last character.
   */
  function Collapse(s: string): string {
    if s == [] then []
    else if IsSpace(s[0]) then
      (if |s| > 1 && IsSpace(s[1]) then "" else "_") + Collapse(s[1..])
    else [s[0]] + Collapse(s[1..])
  }

  function Slug(name: string): string {
    Collapse(Trim(Filtered(name)))
  }

  /** `generateContentId`. */
  function ContentId(name: string): (r: string)
    ensures |r| >= 6 && r[..6] == "title:"
    ensures SlugShaped(r[6..])
  {
    SlugShape(name);
    assert ("title:" + Slug(name))[6..] == Slug(name);
    "title:" + Slug(name)
  }

  /** Only `a-z`, `0-9` and `_`; no `_` at either end; never two `_` in a row. */
  predicate SlugShaped(r: string) {
    && (forall k :: 0 <= k < |r| ==> AlphaNum(r[k]) || r[k] == '_')
    && (r == [] || (r[0] != '_' && r[|r| - 1] != '_'))
    && (forall k :: 0 <= k < |r| - 1 ==> r[k] != '_' || r[k + 1] != '_')
  }

  /**
   * A one-pass reference normaliser: white space is dropped, and a single '_' is
   * written before a non-space character when white space separated it from an
   * earlier one. `started`: something was written; `pending`: a separator is owed.
   */
  function Norm(s: string, started: bool, pending: bool): string {
    if s == [] then []
    else if IsSpace(s[0]) then Norm(s[1..], started, started)
    else (if pending then "_" else "") + [s[0]] + Norm(s[1..], true, false)
  }

  /** The state `Norm` is in after reading `s`. */
  function NormState(s: string, started: bool, pending: bool): (bool, bool) {
    if s == [] then (started, pending)
    else if IsSpace(s[0]) then NormState(s[1..], started, started)
    else NormState(s[1..], true, false)
  }

  lemma {:induction false} NormConcat(a: string, b: string, started: bool, pending: bool)
    ensures Norm(a + b, started, pending) ==
            Norm(a, started, pending) + Norm(b, NormState(a, started, pending).0, NormState(a, started, pending).1)
  {
    if a == [] {
      assert a + b == b;
    } else {
      assert (a + b)[0] == a[0] && (a + b)[1..] == a[1..] + b;
      if IsSpace(a[0]) {
        NormConcat(a[1..], b, started, started);
      } else {
        NormConcat(a[1..], b, true, false);
      }
    }
  }

  /** A run of white space only owes a separator; its length does not matter. */
  lemma {:induction false} NormSpaces(w: string, v: string, started: bool, pending: bool)
    requires AllSpace(w)
    ensures Norm(w + v, started, pending) == Norm(v, started, if w == [] then pending else started)
  {
    if w != [] {
      assert (w + v)[0] == w[0] && (w + v)[1..] == w[1..] + v;
      NormSpaces(w[1..], v, started, started);
    } else {
      assert w + v == v;
    }
  }

  /** Trailing white space writes nothing. */
  lemma {:induction false} NormTrailing(u: string, w: string, started: bool, pending: bool)
    requires AllSpace(w)
    ensures Norm(u + w, started, pending) == Norm(u, started, pending)
  {
    if u == [] {
      NormSpaces(w, [], started, pending);
      assert w + [] == w && u + w == w;
    } else {
      assert (u + w)[0] == u[0] && (u + w)[1..] == u[1..] + w;
      if IsSpace(u[0]) {
        NormTrailing(u[1..], w, started, started);
      } else {
        NormTrailing(u[1..], w, true, false);
      }
    }
  }

  /**
   * On text that does not end in white space, collapsing runs is the normaliser
   * after a first character, and after a separator when the text starts with white space.
   */
  lemma {:induction false} CollapseIsNorm(u: string)
    requires u == [] || !IsSpace(u[|u| - 1])
    ensures Collapse(u) == Norm(u, true, false)
    ensures u != [] && IsSpace(u[0]) ==> Collapse(u) == Norm(u, true, true)
  {
    if u != [] {
      assert u[1..] == [] || u[1..][|u[1..]| - 1] == u[|u| - 1];
      CollapseIsNorm(u[1..]);
      if IsSpace(u[0]) && !IsSpace(u[1]) {
        assert Norm(u[1..], true, true) == "_" + Norm(u[1..], true, false);
      }
    }
  }

  /** The slug pipeline agrees with the one-pass normaliser. */
  lemma SlugIsNorm(s: string)
    ensures Collapse(Trim(s)) == Norm(s, false, false)
  {
    var t := TrimStart(s);
    var u := TrimEnd(t);
    NormTrimStart(s);
    NormTrimEnd(t);
    if u != [] {
      assert u[0] == t[0];
      SlugHead(u);
    }
  }

  /** Leading white space writes nothing when nothing has been written yet. */
  lemma NormTrimStart(s: string)
    ensures Norm(s, false, false) == Norm(TrimStart(s), false, false)
  {
    var t := TrimStart(s);
    TrimStartParts(s);
    NormSpaces(s[..|s| - |t|], t, false, false);
  }

  /** Trailing white space writes nothing. */
  lemma NormTrimEnd(t: string)
    ensures Norm(t, false, false) == Norm(TrimEnd(t), false, false)
  {
    var u := TrimEnd(t);
    TrimEndParts(t);
    NormTrailing(u, t[|u|..], false, false);
  }

  lemma SlugHead(u: string)
    requires u != [] && !IsSpace(u[0]) && !IsSpace(u[|u| - 1])
    ensures Collapse(u) == Norm(u, false, false)
  {
    assert u[1..] == [] || u[1..][|u[1..]| - 1] == u[|u| - 1];
    CollapseIsNorm(u[1..]);
  }

  /** The normaliser's output shape, for input of letters, digits and white space. */
  lemma {:induction false} NormShape(s: string, started: bool, pending: bool)
    requires forall k :: 0 <= k < |s| ==> AlphaNum(s[k]) || IsSpace(s[k])
    requires pending ==> started
    ensures var r := Norm(s, started, pending);
      && (forall k :: 0 <= k < |r| ==> AlphaNum(r[k]) || r[k] == '_')
      && (r == [] || r[|r| - 1] != '_')
      && (!started ==> r == [] || r[0] != '_')
      && (forall k :: 0 <= k < |r| - 1 ==> r[k] != '_' || r[k + 1] != '_')
  {
    if s != [] {
      assert forall k :: 0 <= k < |s[1..]| ==> AlphaNum(s[1..][k]) || IsSpace(s[1..][k]) by {
        forall k | 0 <= k < |s[1..]| ensures AlphaNum(s[1..][k]) || IsSpace(s[1..][k]) { assert s[1..][k] == s[k + 1]; }
      }
      if IsSpace(s[0]) {
        NormShape(s[1..], started, started);
      } else {
        NormShape(s[1..], true, false);
        var rest := Norm(s[1..], true, false);
        var head := (if pending then "_" else "") + [s[0]];
        var r := head + rest;
        assert AlphaNum(s[0]);
        forall k | 0 <= k < |r| - 1 ensures r[k] != '_' || r[k + 1] != '_' {
          if k >= |head| { assert r[k] == rest[k - |head|] && r[k + 1] == rest[k + 1 - |head|]; }
          else if k == |head| - 1 { assert r[k] == s[0]; }
        }
        forall k | 0 <= k < |r| ensures AlphaNum(r[k]) || r[k] == '_' {
          if k >= |head| { assert r[k] == rest[k - |head|]; }
        }
        assert rest != [] ==> r[|r| - 1] == rest[|rest| - 1];
      }
    }
  }

  /** Every slug is made of `a-z`, `0-9` and single inner `_` separators. */
  lemma SlugShape(name: string)
    ensures SlugShaped(Slug(name))
  {
    SlugIsNorm(Filtered(name));
    NormShape(Filtered(name), false, false);
  }

  /** Filtering works character by character. */
  lemma {:induction false} FilteredConcat(a: string, b: string)
    ensures Filtered(a + b) == Filtered(a) + Filtered(b)
  {
    if a == [] {
      assert a + b == b;
    } else {
      assert (a + b)[0] == a[0] && (a + b)[1..] == a[1..] + b;
      FilteredConcat(a[1..], b);
    }
  }

  lemma {:induction false} FilteredSpaces(w: string)
    requires AllSpace(w)
    ensures Filtered(w) == w
  {
    if w != [] {
      assert ToLower(w[0]) == w[0] && Base(w[0]) == w[0];
      FilteredSpaces(w[1..]);
      ConsTail(w);
    }
  }

  /** Names that agree up to letter case have the same slug. */
  lemma {:induction false} SlugIgnoresCase(a: string, b: string)
    requires |a| == |b|
    requires forall k :: 0 <= k < |a| ==> ToLower(a[k]) == ToLower(b[k])
    ensures ContentId(a) == ContentId(b)
  {
    FilteredSameFold(a, b);
  }

  lemma {:induction false} FilteredSameFold(a: string, b: string)
    requires |a| == |b|
    requires forall k :: 0 <= k < |a| ==> ToLower(a[k]) == ToLower(b[k])
    ensures Filtered(a) == Filtered(b)
  {
    if a != [] {
      assert ToLower(a[0]) == ToLower(b[0]);
      forall k | 0 <= k < |a[1..]| ensures ToLower(a[1..][k]) == ToLower(b[1..][k]) {
        assert a[1..][k] == a[k + 1] && b[1..][k] == b[k + 1];
      }
      FilteredSameFold(a[1..], b[1..]);
    }
  }

  /** Names that differ only in the length of a run of white space have the same slug. */
  lemma SlugIgnoresSpaceRunLength(p: string, w1: string, w2: string, q: string)
    requires w1 != [] && w2 != [] && AllSpace(w1) && AllSpace(w2)
    ensures ContentId(p + w1 + q) == ContentId(p + w2 + q)
  {
    SlugAroundSpaces(p, w1, q);
    SlugAroundSpaces(p, w2, q);
  }

  /** The slug of `p + w + q` for a white-space run `w` depends on `p` and `q` alone. */
  lemma SlugAroundSpaces(p: string, w: string, q: string)
    requires w != [] && AllSpace(w)
    ensures var st := NormState(Filtered(p), false, false);
      Slug(p + w + q) == Norm(Filtered(p), false, false) + Norm(Filtered(q), st.0, st.0)
  {
    var fp, fq := Filtered(p), Filtered(q);
    var st := NormState(fp, false, false);
    FilteredConcat(p + w, q);
    FilteredConcat(p, w);
    FilteredSpaces(w);
    SeqAssoc(fp, w, fq);
    SlugIsNorm(fp + (w + fq));
    NormConcat(fp, w + fq, false, false);
    NormSpaces(w, fq, st.0, st.1);
  }

  /** A word of letters and digits is written as it is, after the separator it is owed. */
  lemma {:induction false} NormWord(w: string, started: bool, pending: bool)
    requires w != [] && forall k :: 0 <= k < |w| ==> AlphaNum(w[k])
    ensures Norm(w, started, pending) == (if pending then "_" else "") + w
    ensures NormState(w, started, pending) == (true, false)
  {
    if |w| > 1 {
      NormWord(w[1..], true, false);
      ConsTail(w);
    }
  }

  lemma TheBoysSpelling()
    ensures "The" + " Boys" == "The Boys" && " " + "Boys" == " Boys"
    ensures "the" + ("_" + "boys") == "the_boys"
    ensures "The" + " " + "Boys" == "The Boys" && "The" + "  " + "Boys" == "The  Boys"
    ensures "title:" + "the_boys" == "title:the_boys"
  {
  }

  lemma FilteredTheBoys()
    ensures Filtered("The Boys") == "the" + (" " + "boys")
  {
    TheBoysSpelling();
    FilteredConcat("The", " Boys");
    FilteredConcat(" ", "Boys");
    assert Filtered("The") == "the";
    assert Filtered(" ") == " ";
    assert Filtered("Boys") == "boys";
  }

  lemma NormTheBoys()
    ensures Norm("the" + (" " + "boys"), false, false) == "the_boys"
  {
    TheBoysSpelling();
    NormConcat("the", " " + "boys", false, false);
    NormWord("the", false, false);
    NormSpaces(" ", "boys", true, false);
    NormWord("boys", true, true);
  }

  lemma SlugTheBoys()
    ensures Slug("The Boys") == "the_boys"
  {
    FilteredTheBoys();
    SlugIsNorm("the" + (" " + "boys"));
    NormTheBoys();
  }

  /** "The Boys" and "The  Boys" both become `title:the_boys`. */
  lemma TheBoys(single: string, double: string)
    requires single == "The Boys" && double == "The  Boys"
    ensures ContentId(single) == "title:the_boys"
    ensures ContentId(double) == "title:the_boys"
  {
    SingleSpaceId(single);
    TheBoysSpelling();
    SlugIgnoresSpaceRunLength("The", " ", "  ", "Boys");
  }

  lemma SingleSpaceId(single: string)
    requires single == "The Boys"
    ensures ContentId(single) == "title:the_boys"
  {
    SlugTheBoys();
    TheBoysSpelling();
  }

  // ---------------------------------------------------------------------------
  // Local genre translation

  /** The fixed English-to-Spanish genre table of `translateGenresLocally`. */
  const GenreTable: map<string, string> := map[
    "Drama" := "Drama",
    "Comedy" := "Comedia",
    "Action" := "Acción",
    "Adventure" := "Aventura",
    "Horror" := "Terror",
    "Thriller" := "Suspenso",
    "Science-Fiction" := "Ciencia Ficción",
    "Sci-Fi" := "Ciencia Ficción",
    "Fantasy" := "Fantasía",
    "Romance" := "Romance",
    "Crime" := "Crimen",
    "Mystery" := "Misterio",
    "Documentary" := "Documental",
    "Animation" := "Animación",
    "Family" := "Familiar",
    "War" := "Guerra",
    "Western" := "Western",
    "Music" := "Musical",
    "History" := "Historia",
    "Sport" := "Deportes",
    "Sports" := "Deportes",
    "Biography" := "Biografía",
    "Supernatural" := "Sobrenatural",
    "Legal" := "Legal",
    "Medical" := "Médico"]

  /** `genreMap[g] || g`: the table entry of a known genre, the genre itself otherwise. */
  function TranslateGenre(g: string): (r: string)
    ensures g in GenreTable ==> r == GenreTable[g] && r != ""
    ensures g !in GenreTable ==> r == g
  {
    if g in GenreTable && GenreTable[g] != "" then GenreTable[g] else g
  }

  /** `translateGenresLocally`: genre by genre, same length and order. */
  function TranslateGenres(genres: seq<string>): (r: seq<string>)
    ensures |r| == |genres|
    ensures forall k :: 0 <= k < |genres| ==> r[k] == TranslateGenre(genres[k])
  {
    seq(|genres|, k requires 0 <= k < |genres| => TranslateGenre(genres[k]))
  }

  /** Every table entry translates to itself: translating twice changes nothing more. */
  lemma TranslateGenreIdempotent(g: string)
    ensures TranslateGenre(TranslateGenre(g)) == TranslateGenre(g)
  {
    if g in GenreTable {
      var t := GenreTable[g];
      assert t in GenreTable ==> GenreTable[t] == t;
    }
  }

  lemma TranslateGenresIdempotent(genres: seq<string>)
    ensures TranslateGenres(TranslateGenres(genres)) == TranslateGenres(genres)
  {
    forall k | 0 <= k < |genres| ensures TranslateGenre(TranslateGenre(genres[k])) == TranslateGenre(genres[k]) {
      TranslateGenreIdempotent(genres[k]);
    }
  }

  // ---------------------------------------------------------------------------
  // Summary and genres shown for a show

  /** No `<` is followed, anywhere later, by a `>`: no complete tag is left. */
  predicate NoTag(s: string) {
    forall i, j :: 0 <= i < j < |s| && s[i] == '<' ==> s[j] != '>'
  }

  /**
   * `replace(/<[^>]*>/g, '')`: from each `<` up to the first `>` after it is
   * removed; a `<` with no `>` after it stays.
   */
  function StripTags(s: string): (r: string)
    ensures forall c :: c in r ==> c in s
    ensures NoTag(r)
    decreases |s|
  {
    if s == [] then []
    else
      var body := BeforeFirst(s[1..], '>');
      if s[0] == '<' && |body| < |s| - 1 then
        var r := StripTags(s[|body| + 2..]);
        assert forall c :: c in s[|body| + 2..] ==> c in s;
        r
      else
        var rest := StripTags(s[1..]);
        var r := [s[0]] + rest;
        assert s[0] == '<' ==> '>' !in s[1..];
        forall i, j | 0 <= i < j < |r| && r[i] == '<' ensures r[j] != '>' {
          assert r[j] == rest[j - 1];
          if i > 0 { assert r[i] == rest[i - 1]; }
        }
        r
  }

  /** Text without `<` has no tag to remove. */
  lemma {:induction false} StripTagsPlain(s: string)
    requires '<' !in s
    ensures StripTags(s) == s
  {
    if s != [] {
      assert '<' !in s[1..];
      StripTagsPlain(s[1..]);
      ConsTail(s);
    }
  }

  /** The first `>` after `t + ">"` closes the tag when `t` has none. */
  lemma TagBody(t: string, b: string)
    requires '>' !in t
    ensures BeforeFirst(t + ">" + b, '>') == t
  {
    var s := t + ">" + b;
    var r := BeforeFirst(s, '>');
    assert s[|t|] == '>' && s[..|t|] == t;
  }

  /** A complete tag is removed and the text around it is kept. */
  lemma {:induction false} StripTagsKeepsText(a: string, t: string, b: string)
    requires '<' !in a && '>' !in t
    ensures StripTags(a + "<" + t + ">" + b) == a + StripTags(b)
  {
    var s := a + "<" + t + ">" + b;
    if a == [] {
      assert s[1..] == t + ">" + b;
      TagBody(t, b);
      assert s[|t| + 2..] == b;
    } else {
      assert s[1..] == a[1..] + "<" + t + ">" + b;
      StripTagsKeepsText(a[1..], t, b);
      assert a == [a[0]] + a[1..];
    }
  }

  /** A summary as TVmaze sends it loses its paragraph tags and keeps its text. */
  lemma StripParagraph(s: string, text: string)
    requires s == "<p>" + text + "</p>" && '<' !in text
    ensures StripTags(s) == text
  {
    assert s == [] + "<" + "p" + ">" + (text + "</p>");
    StripTagsKeepsText([], "p", text + "</p>");
    assert text + "</p>" == text + "<" + "/p" + ">" + [];
    StripTagsKeepsText(text, "/p", []);
  }

  /** `getSummary`: the Spanish summary when there is one, else the original, without tags. */
  function GetSummary(show: TvMazeShow): (r: string)
    ensures var text := OrElse(show.summaryEs, show.summary);
      && NoTag(r)
      && (forall c :: c in r ==> c in text)
      && ('<' !in text ==> r == text)
    ensures r == StripTags(OrElse(show.summaryEs, show.summary))
  {
    var text := OrElse(show.summaryEs, show.summary);
    assert '<' !in text ==> StripTags(text) == text by {
      if '<' !in text { StripTagsPlain(text); }
    }
    StripTags(text)
  }

  /** `getGenres`: the Spanish genres when the show carries them, else the original ones. */
  function GetGenres(show: TvMazeShow): (r: seq<string>)
    ensures show.genresEs.Some? ==> r == show.genresEs.value
    ensures show.genresEs.None? ==> r == show.genres
  {
    if show.genresEs.Some? then show.genresEs.value else show.genres
  }

  // ---------------------------------------------------------------------------
  // Import payload

  /** The trailer the user picked and whether it was validated. */
  datatype VideoData = VideoData(videoId: string, sourceUrl: string, validated: bool)

  datatype PayloadVideo = PayloadVideo(url: string, filename: string, validated: bool)

  /** The document `importToCatalog` hands to the catalog service. */
  datatype ImportPayload = ImportPayload(
    contentType: ContentType,
    name: string,
    nameEs: string,
    genres: seq<string>,
    genresEs: seq<string>,
    premiered: Option<string>,
    rating: real,
    summary: string,
    summaryEs: string,
    seasons: seq<Season>,
    image: Option<string>,
    video: Option<PayloadVideo>)

  const YOUTUBE_WATCH: string := "https://www.youtube.com/watch?v="

  /** `importToCatalog`: the payload, with the video attached only when a validated trailer id is given. */
  method BuildImportPayload(show: TvMazeShow, videoData: Option<VideoData>) returns (payload: ImportPayload)
    ensures payload.video.Some? <==> videoData.Some? && videoData.value.validated && videoData.value.videoId != ""
    ensures payload.video.Some? ==>
              payload.video.value.filename == videoData.value.videoId &&
              payload.video.value.validated &&
              payload.video.value.url ==
                (if videoData.value.sourceUrl != "" then videoData.value.sourceUrl else YOUTUBE_WATCH + videoData.value.videoId)
    ensures payload.nameEs == OrElse(show.nameEs, show.name) && payload.name == show.name
    ensures payload.genresEs == GetGenres(show) && payload.genres == show.genres
    ensures payload.contentType == Serie && payload.seasons == []
    ensures payload.premiered == (if Present(show.premiered) then show.premiered else None)
    ensures payload.rating == RatingOrZero(show)
    ensures payload.summary == show.summary && payload.summaryEs == OrElse(show.summaryEs, "")
    ensures payload.image == PosterOf(show)
  {
    payload := ImportPayload(
      Serie,
      show.name,
      OrElse(show.nameEs, show.name),
      show.genres,
      if show.genresEs.Some? then show.genresEs.value else show.genres,
      if Present(show.premiered) then show.premiered else None,
      RatingOrZero(show),
      show.summary,
      OrElse(show.summaryEs, ""),
      [],
      PosterOf(show),
      None);
    if videoData.Some? && videoData.value.validated && videoData.value.videoId != "" {
      var url := if videoData.value.sourceUrl != "" then videoData.value.sourceUrl else YOUTUBE_WATCH + videoData.value.videoId;
      payload := payload.(video := Some(PayloadVideo(url, videoData.value.videoId, true)));
    }
  }

  // ---------------------------------------------------------------------------
  // Watchlist toggle from a result card

  /** The entry a result card adds: as `toggle` builds it, but the summary falls back to `getSummary`. */
  function CardItem(show: TvMazeShow): (r: WatchlistItem)
    ensures r == Watchlist.NewItemFromShow(show).(summaryEs := r.summaryEs)
    ensures r.summaryEs == Some(if Present(show.summaryEs) then show.summaryEs.value else GetSummary(show))
  {
    Watchlist.NewItemFromShow(show).(summaryEs := Some(if Present(show.summaryEs) then show.summaryEs.value else GetSummary(show)))
  }

  /** `addToWatchlist`: removes the show when listed, otherwise adds its card entry. */
  method AddToWatchlist(ws: Watchlist.WatchlistService, show: TvMazeShow)
    modifies ws, ws.storage
    ensures Watchlist.Listed(ws.watchlist, show.id) <==> !Watchlist.Listed(old(ws.watchlist), show.id)
    ensures Watchlist.Listed(old(ws.watchlist), show.id) ==> ws.watchlist == Watchlist.RemoveId(old(ws.watchlist), show.id)
    ensures !Watchlist.Listed(old(ws.watchlist), show.id) ==> ws.watchlist == old(ws.watchlist) + [CardItem(show)]
    ensures ws.storage.local == old(ws.storage.local)[Watchlist.KEY := Storage.Encoded(Storage.WatchlistJson(ws.watchlist))]
    ensures ws.Persisted()
    ensures old(ws.WellFormed()) ==> ws.WellFormed()
  {
    var item := CardItem(show);
    var listed := ws.IsInWatchlist(show.id);
    if listed {
      ws.RemoveById(show.id);
    } else {
      ws.Add(item);
    }
  }
}

=== FILE: setup.dfy ===
/**
 * The database set-up script (scripts/setup_couchdb.js): the `map` functions of
 * the `_design/reports` views, the status handling of database creation, and the
 * seed loader that inserts only the seed documents not already stored. The
 * answers of the database are inputs.
 */
module Setup {
  import opened Wrappers
  import opened Types
  import opened Couch
  import Text

  // ---------------------------------------------------------------------------
  // View map functions

  /** `by_releaseDate`: one row keyed by the premiere date of a dated content. */
  function ByReleaseDate(doc: RawDoc): (r: seq<Row>)
    ensures |r| <= 1
    ensures r != [] <==> IsContent(doc) && Present(doc.premiered)
    ensures forall row :: row in r ==> row.key == StrKey(doc.premiered.value) && row.value == NullValue
  {
    if IsContent(doc) && Present(doc.premiered) then [Row(StrKey(doc.premiered.value), NullValue)] else []
  }

  /** `by_downloads`: one row keyed by the download count of a content whose count is a number. */
  function ByDownloads(doc: RawDoc): (r: seq<Row>)
    ensures |r| <= 1
    ensures r != [] <==> IsContent(doc) && doc.downloads.Some?
    ensures forall row :: row in r ==> row.key == NumKey(doc.downloads.value) && row.value == NullValue
  {
    if IsContent(doc) && doc.downloads.Some? then [Row(NumKey(doc.downloads.value), NullValue)] else []
  }

  /** The rows `list.forEach(x => emit([x, doc.premiered || ''], null))` emits. */
  function PerEntry(list: seq<string>, premiered: Option<string>): (r: seq<Row>)
    ensures |r| == |list|
    ensures forall k :: 0 <= k < |r| ==> r[k] == Row(PairKey(list[k], OrElse(premiered, "")), NullValue)
  {
    if list == [] then []
    else [Row(PairKey(list[0], OrElse(premiered, "")), NullValue)] + PerEntry(list[1..], premiered)
  }

  /** `by_actor`: one row per cast entry, keyed `[actorId, premiered or '']`. */
  function ByActor(doc: RawDoc): (r: seq<Row>)
    ensures IsContent(doc) && doc.castIds.Some? ==> |r| == |doc.castIds.value|
    ensures !(IsContent(doc) && doc.castIds.Some?) ==> r == []
    ensures forall k :: 0 <= k < |r| ==> r[k].key == PairKey(doc.castIds.value[k], OrElse(doc.premiered, ""))
  {
    if IsContent(doc) && doc.castIds.Some? then PerEntry(doc.castIds.value, doc.premiered) else []
  }

  /** `by_genre`: one row per genre, keyed `[genre, premiered or '']`. */
  function ByGenre(doc: RawDoc): (r: seq<Row>)
    ensures IsContent(doc) && doc.genres.Some? ==> |r| == |doc.genres.value|
    ensures !(IsContent(doc) && doc.genres.Some?) ==> r == []
    ensures forall k :: 0 <= k < |r| ==> r[k].key == PairKey(doc.genres.value[k], OrElse(doc.premiered, ""))
  {
    if IsContent(doc) && doc.genres.Some? then PerEntry(doc.genres.value, doc.premiered) else []
  }

  /** The row the inner loop of `collaborations` emits at positions `(i, j)`. */
  function PairRows(cast: seq<string>, i: nat, j: nat): (r: seq<Row>)
    requires i < |cast| && j < |cast|
  {
    if i != j then [Row(PairKey(cast[i], cast[j]), Count(1))] else []
  }

  /** The rows of the inner loop at row `i` for the columns `0 .. j-1`. */
  function InnerRows(cast: seq<string>, i: nat, j: nat): (r: seq<Row>)
    requires i < |cast| && j <= |cast|
    ensures |r| == if i < j then j - 1 else j
  {
    if j == 0 then [] else InnerRows(cast, i, j - 1) + PairRows(cast, i, j - 1)
  }

  /** The rows of the outer loop for the rows `0 .. i-1`. */
  function OuterRows(cast: seq<string>, i: nat): (r: seq<Row>)
    requires i <= |cast|
    ensures |r| == i * (|cast| - 1)
  {
    if i == 0 then []
    else
      var prev := OuterRows(cast, i - 1);
      var inner := InnerRows(cast, i - 1, |cast|);
      assert |prev + inner| == (i - 1) * (|cast| - 1) + (|cast| - 1);
      prev + inner
  }

  /** The row for `(a, b)`. */
  function PairRow(cast: seq<string>, a: nat, b: nat): (r: Row)
    requires a < |cast| && b < |cast|
  {
    Row(PairKey(cast[a], cast[b]), Count(1))
  }

  lemma {:induction false} InnerRowsHas(cast: seq<string>, i: nat, j: nat, c: nat)
    requires i < |cast| && c < j <= |cast| && c != i
    ensures PairRow(cast, i, c) in InnerRows(cast, i, j)
  {
    if c < j - 1 {
      InnerRowsHas(cast, i, j - 1, c);
    } else {
      assert PairRows(cast, i, j - 1) == [PairRow(cast, i, c)];
    }
  }

  lemma {:induction false} InnerRowsOnly(cast: seq<string>, i: nat, j: nat, row: Row)
    requires i < |cast| && j <= |cast|
    requires row in InnerRows(cast, i, j)
    ensures exists c :: 0 <= c < j && c != i && row == PairRow(cast, i, c)
  {
    if j > 0 {
      if row in InnerRows(cast, i, j - 1) {
        InnerRowsOnly(cast, i, j - 1, row);
      } else {
        assert row in PairRows(cast, i, j - 1);
        assert row == PairRow(cast, i, j - 1);
      }
    }
  }

  lemma {:induction false} OuterRowsHas(cast: seq<string>, i: nat, a: nat, b: nat)
    requires i <= |cast| && a < i && b < |cast| && a != b
    ensures PairRow(cast, a, b) in OuterRows(cast, i)
  {
    if a < i - 1 {
      OuterRowsHas(cast, i - 1, a, b);
    } else {
      InnerRowsHas(cast, a, |cast|, b);
    }
  }

  lemma {:induction false} OuterRowsOnly(cast: seq<string>, i: nat, row: Row)
    requires i <= |cast|
    requires row in OuterRows(cast, i)
    ensures exists a, b :: 0 <= a < i && 0 <= b < |cast| && a != b && row == PairRow(cast, a, b)
  {
    if i > 0 {
      if row in OuterRows(cast, i - 1) {
        OuterRowsOnly(cast, i - 1, row);
      } else {
        InnerRowsOnly(cast, i - 1, |cast|, row);
      }
    }
  }

  /**
   * `collaborations`: for a content with more than one cast entry, the row
   * `[castIds[i], castIds[j]] -> 1` for every ordered pair of distinct positions.
   */
  function Collaborations(doc: RawDoc): (r: seq<Row>)
    ensures IsContent(doc) && doc.castIds.Some? && |doc.castIds.value| > 1 ==>
              r == OuterRows(doc.castIds.value, |doc.castIds.value|)
    ensures !(IsContent(doc) && doc.castIds.Some? && |doc.castIds.value| > 1) ==> r == []
  {
    if IsContent(doc) && doc.castIds.Some? && |doc.castIds.value| > 1 then
      OuterRows(doc.castIds.value, |doc.castIds.value|)
    else []
  }

  /** A cast of `n` entries gives `n * (n - 1)` collaboration rows. */
  lemma CollaborationsCount(doc: RawDoc)
    requires IsContent(doc) && doc.castIds.Some?
    ensures var n := |doc.castIds.value|; |Collaborations(doc)| == n * (n - 1)
  {
    var n := |doc.castIds.value|;
    if n <= 1 {
      assert n * (n - 1) == 0;
    }
  }

  /**
   * Every collaboration row is worth 1 and pairs two different positions of the
   * cast, and every such pair has its row.
   */
  lemma {:induction false} CollaborationsPairs(doc: RawDoc, row: Row)
    requires IsContent(doc) && doc.castIds.Some?
    ensures var cast := doc.castIds.value;
      row in Collaborations(doc) <==>
      exists a, b :: 0 <= a < |cast| && 0 <= b < |cast| && a != b && row == PairRow(cast, a, b)
  {
    var cast := doc.castIds.value;
    if row in Collaborations(doc) {
      OuterRowsOnly(cast, |cast|, row);
    }
    if exists a, b :: 0 <= a < |cast| && 0 <= b < |cast| && a != b && row == PairRow(cast, a, b) {
      var a, b :| 0 <= a < |cast| && 0 <= b < |cast| && a != b && row == PairRow(cast, a, b);
      OuterRowsHas(cast, |cast|, a, b);
    }
  }

  /**
   * The `collaborations` map function as the script writes it: two nested index
   * loops that emit a row for every `i !== j`.
   */
  method EmitCollaborations(doc: RawDoc) returns (rows: seq<Row>)
    ensures rows == Collaborations(doc)
  {
    rows := [];
    if IsContent(doc) && doc.castIds.Some? && |doc.castIds.value| > 1 {
      var cast := doc.castIds.value;
      var i := 0;
      while i < |cast|
        invariant 0 <= i <= |cast|
        invariant rows == OuterRows(cast, i)
      {
        var j := 0;
        while j < |cast|
          invariant 0 <= j <= |cast|
          invariant rows == OuterRows(cast, i) + InnerRows(cast, i, j)
        {
          if i != j {
            rows := rows + [Row(PairKey(cast[i], cast[j]), Count(1))];
          }
          Text.SeqAssoc(OuterRows(cast, i), InnerRows(cast, i, j), PairRows(cast, i, j));
          j := j + 1;
        }
        i := i + 1;
      }
    }
  }

  // ---------------------------------------------------------------------------
  // Database creation

  datatype CreateOutcome = Created | AlreadyExists | CreateFailed

  /** `createDatabase`: success, HTTP 412 ("already exists"), or any other failure. */
  function CreateDatabaseOutcome(ok: bool, status: int): (r: CreateOutcome)
    ensures r == Created <==> ok
    ensures r == AlreadyExists <==> !ok && status == 412
    ensures r == CreateFailed <==> !ok && status != 412
  {
    if ok then Created else if status == 412 then AlreadyExists else CreateFailed
  }

  // ---------------------------------------------------------------------------
  // Seed loading

  /** What `loadSeedData` ends with: nothing to do, or one bulk insertion. */
  datatype SeedOutcome = AllPresent | BulkInsert(docs: seq<RawDoc>)

  /** The ids of the documents of `docs` whose lookup succeeded, in order. */
  function FoundIds(docs: seq<RawDoc>, found: string -> bool): (r: seq<string>)
    ensures forall id :: id in r <==> exists k :: 0 <= k < |docs| && docs[k].id == id && found(id)
  {
    if docs == [] then []
    else
      var rest := FoundIds(docs[..|docs| - 1], found);
      var last := docs[|docs| - 1];
      assert forall k :: 0 <= k < |docs| - 1 ==> docs[..|docs| - 1][k] == docs[k];
      rest + (if found(last.id) then [last.id] else [])
  }

  /** `docs.filter(d => !ids.includes(d._id))`. */
  function Missing(docs: seq<RawDoc>, ids: seq<string>): (r: seq<RawDoc>)
    ensures |r| <= |docs|
    ensures forall d :: d in r <==> d in docs && d.id !in ids
  {
    if docs == [] then []
    else (if docs[0].id in ids then [] else [docs[0]]) + Missing(docs[1..], ids)
  }

  /**
   * `loadSeedData`: looks every seed document up (`found` is whether the lookup
   * of an id answered with success), then inserts in one bulk request the seed
   * documents whose id was not found, or makes no request when there are none.
   */
  method LoadSeedData(seed: seq<RawDoc>, found: string -> bool) returns (existingIds: seq<string>, outcome: SeedOutcome)
    ensures existingIds == FoundIds(seed, found)
    ensures outcome.AllPresent? <==> forall d :: d in seed ==> found(d.id)
    ensures outcome.BulkInsert? ==> outcome.docs == Missing(seed, existingIds) && outcome.docs != []
    ensures outcome.BulkInsert? ==> forall d :: d in outcome.docs <==> d in seed && !found(d.id)
  {
    existingIds := [];
    var i := 0;
    while i < |seed|
      invariant 0 <= i <= |seed|
      invariant existingIds == FoundIds(seed[..i], found)
    {
      assert seed[..i + 1][..i] == seed[..i];
      if found(seed[i].id) {
        existingIds := existingIds + [seed[i].id];
      }
      i := i + 1;
    }
    assert seed[..|seed|] == seed;
    var docsToInsert := Missing(seed, existingIds);
    assert forall d :: d in seed ==> (d.id in existingIds <==> found(d.id));
    if docsToInsert == [] {
      assert forall d :: d in seed ==> found(d.id) by {
        forall d | d in seed ensures found(d.id) {
          assert d !in docsToInsert;
        }
      }
      outcome := AllPresent;
    } else {
      assert docsToInsert[0] in seed && !found(docsToInsert[0].id);
      outcome := BulkInsert(docsToInsert);
    }
  }
}

=== FILE: storage.dfy ===
/**
 * The connection-configuration store (src/services/storage.service.ts): a typed
 * facade over the browser's key/value store. The store itself is the field
 * `local`; what a key holds is either a JSON document the application wrote or
 * text that does not parse. JSON encoding is taken to be the identity: what
 * `setItem` writes is exactly what `getItem` reads back.
 */
module Storage {
  import opened Wrappers
  import opened Types

  /** The database name of each role (`MultiDbConfig.databases`). */
  datatype Databases = Databases(
    actores: string,
    series: string,
    peliculas: string,
    descripcion: string,
    watchlist: string,
    usuarios: string)

  datatype MultiDbConfig = MultiDbConfig(host: string, username: string, password: string, databases: Databases)

  /** The single-database view kept for the settings page. */
  datatype CouchDbConfig = CouchDbConfig(host: string, dbName: string, username: string, password: string)

  /** The two JSON shapes the application stores. */
  datatype Json = WatchlistJson(items: seq<WatchlistItem>) | MultiConfigJson(config: MultiDbConfig)

  /** The raw text held under a key: an encoded document, or text that does not parse. */
  datatype Stored = Encoded(value: Json) | Unparsable(text: string)

  const CONFIG_KEY: string := "couchdb_multi_config"

  const DEFAULT_MULTI_CONFIG: MultiDbConfig := MultiDbConfig(
    "http://localhost:5984", "admin", "admin",
    Databases("actores_db", "series_db", "peliculas_db", "descripcion_db", "watchlist_db", "usuarios_db"))

  /** The legacy projection: the series database stands for "the" database. */
  function CouchView(multi: MultiDbConfig): (r: CouchDbConfig)
    ensures r.dbName == multi.databases.series
    ensures r.host == multi.host && r.username == multi.username && r.password == multi.password
  {
    CouchDbConfig(multi.host, multi.databases.series, multi.username, multi.password)
  }

  /** Overwrites the credentials of `multi` with those of `config`; `config.dbName` is ignored. */
  function MergeCouch(multi: MultiDbConfig, config: CouchDbConfig): (r: MultiDbConfig)
    ensures r.databases == multi.databases
    ensures CouchView(r) == config.(dbName := multi.databases.series)
  {
    multi.(host := config.host, username := config.username, password := config.password)
  }

  class StorageService {
    /** The browser's key/value store. */
    var local: map<string, Stored>

    constructor (initial: map<string, Stored>)
      ensures local == initial
    {
      local := initial;
    }

    /** `getItem`: the parsed document, or none when the key is missing or does not parse. */
    function GetItem(key: string): (r: Option<Json>)
      reads this
      ensures r.None? <==> key !in local || local[key].Unparsable?
      ensures r.Some? ==> local[key] == Encoded(r.value)
    {
      if key in local && local[key].Encoded? then Some(local[key].value) else None
    }

    /** `setItem`: stores the encoding of `value` under `key`; other keys keep their contents. */
    method SetItem(key: string, value: Json)
      modifies this
      ensures local == old(local)[key := Encoded(value)]
      ensures GetItem(key) == Some(value)
      ensures forall k :: k != key ==> GetItem(k) == old(GetItem(k))
    {
      local := local[key := Encoded(value)];
    }

    method RemoveItem(key: string)
      modifies this
      ensures local == old(local) - {key}
      ensures GetItem(key) == None
      ensures forall k :: k != key ==> GetItem(k) == old(GetItem(k))
    {
      local := local - {key};
    }

    /**
     * `getMultiDbConfig`: the saved configuration, or the defaults when none is saved
     * (or what is saved does not parse as one).
     */
    function GetMultiDbConfig(): (r: MultiDbConfig)
      reads this
      ensures CONFIG_KEY !in local ==> r == DEFAULT_MULTI_CONFIG
      ensures CONFIG_KEY in local && local[CONFIG_KEY].Unparsable? ==> r == DEFAULT_MULTI_CONFIG
      ensures CONFIG_KEY in local && local[CONFIG_KEY].Encoded? && local[CONFIG_KEY].value.MultiConfigJson? ==>
                r == local[CONFIG_KEY].value.config
    {
      match GetItem(CONFIG_KEY)
      case Some(MultiConfigJson(config)) => config
      case _ => DEFAULT_MULTI_CONFIG
    }

    method SetMultiDbConfig(config: MultiDbConfig)
      modifies this
      ensures local == old(local)[CONFIG_KEY := Encoded(MultiConfigJson(config))]
      ensures GetMultiDbConfig() == config
    {
      SetItem(CONFIG_KEY, MultiConfigJson(config));
    }

    method ResetMultiDbConfig()
      modifies this
      ensures local == old(local) - {CONFIG_KEY}
      ensures GetMultiDbConfig() == DEFAULT_MULTI_CONFIG
    {
      RemoveItem(CONFIG_KEY);
    }

    /** `getCouchDbConfig`: the legacy view of the current multi-database configuration. */
    function GetCouchDbConfig(): (r: CouchDbConfig)
      reads this
      ensures r.dbName == GetMultiDbConfig().databases.series
      ensures r.host == GetMultiDbConfig().host
      ensures CONFIG_KEY !in local ==> r == CouchDbConfig("http://localhost:5984", "series_db", "admin", "admin")
    {
      CouchView(GetMultiDbConfig())
    }

    /**
     * `setCouchDbConfig`: saves the current multi configuration with only the host
     * and the credentials replaced; the database mapping is kept.
     */
    method SetCouchDbConfig(config: CouchDbConfig)
      modifies this
      ensures GetMultiDbConfig() == MergeCouch(old(GetMultiDbConfig()), config)
      ensures GetMultiDbConfig().databases == old(GetMultiDbConfig()).databases
      ensures GetCouchDbConfig() == config.(dbName := old(GetMultiDbConfig()).databases.series)
      ensures local == old(local)[CONFIG_KEY := Encoded(MultiConfigJson(GetMultiDbConfig()))]
    {
      var multi := GetMultiDbConfig();
      multi := multi.(host := config.host);
      multi := multi.(username := config.username);
      multi := multi.(password := config.password);
      SetMultiDbConfig(multi);
    }

    method ResetCouchDbConfig()
      modifies this
      ensures local == old(local) - {CONFIG_KEY}
      ensures GetMultiDbConfig() == DEFAULT_MULTI_CONFIG
      ensures GetCouchDbConfig().dbName == "series_db"
    {
      ResetMultiDbConfig();
    }
  }
}

=== FILE: text.dfy ===
/**
 * The JavaScript string built-ins the application relies on, with their
 * JavaScript semantics: `trim`, `split`, `join`, the comma-list idiom
 * `split(',').map(x => x.trim()).filter(x => x)`, and the code-unit order
 * that `<` and `Array.prototype.sort` use on strings.
 */
module Text {
  import opened Wrappers

  /** The characters `String.prototype.trim` removes and the regex class `\s` matches. */
  predicate IsSpace(c: char) {
    || c == ' ' || c == '\t' || c == '\n' || c == '\r'
    || c == '\U{000B}' || c == '\U{000C}' || c == '\U{00A0}' || c == '\U{1680}'
    || ('\U{2000}' <= c <= '\U{200A}')
    || c == '\U{2028}' || c == '\U{2029}' || c == '\U{202F}' || c == '\U{205F}'
    || c == '\U{3000}' || c == '\U{FEFF}'
  }

  /** No white space at either end. */
  predicate Trimmed(s: string) {
    s == [] || (!IsSpace(s[0]) && !IsSpace(s[|s| - 1]))
  }

  /** Only white space. */
  predicate AllSpace(w: string) {
    forall k :: 0 <= k < |w| ==> IsSpace(w[k])
  }

  /** How many white-space characters `s` starts with. */
  function LeadingSpaces(s: string): (n: nat)
    ensures n <= |s| && AllSpace(s[..n])
    ensures n == |s| || !IsSpace(s[n])
  {
    if |s| > 0 && IsSpace(s[0]) then
      var n := 1 + LeadingSpaces(s[1..]);
      assert s[..n] == [s[0]] + s[1..][..n - 1];
      n
    else 0
  }

  /** The length of `s` without its trailing white space. */
  function KeptLength(s: string): (n: nat)
    ensures n <= |s| && AllSpace(s[n..])
    ensures n == 0 || !IsSpace(s[n - 1])
  {
    if |s| > 0 && IsSpace(s[|s| - 1]) then
      var n := KeptLength(s[..|s| - 1]);
      assert s[n..] == s[..|s| - 1][n..] + [s[|s| - 1]];
      n
    else |s|
  }

  /** Leading white space removed: the longest suffix that does not start with white space. */
  function TrimStart(s: string): (r: string)
    ensures |r| <= |s| && forall k :: 0 <= k < |r| ==> r[k] == s[|s| - |r| + k]
    ensures r == [] || !IsSpace(r[0])
    ensures AllSpace(s[..|s| - |r|])
  {
    s[LeadingSpaces(s)..]
  }

  /** Trailing white space removed: the longest prefix that does not end with white space. */
  function TrimEnd(s: string): (r: string)
    ensures |r| <= |s| && forall k {:trigger r[k]} :: 0 <= k < |r| ==> r[k] == s[k]
    ensures r == [] || !IsSpace(r[|r| - 1])
    ensures forall k :: |r| <= k < |s| ==> IsSpace(s[k])
  {
    var n := KeptLength(s);
    assert forall k :: n <= k < |s| ==> s[k] == s[n..][k - n];
    s[..n]
  }

  /** `s.trim()`. */
  function Trim(s: string): (r: string)
    ensures |r| <= |s|
  {
    TrimEnd(TrimStart(s))
  }

  /** `trim` leaves no white space at either end. */
  lemma TrimTrimmed(s: string)
    ensures Trimmed(Trim(s))
  {
    TrimmedPrefix(TrimStart(s), TrimEnd(TrimStart(s)));
  }

  /** A prefix of a text without leading white space that ends in no white space is trimmed. */
  lemma TrimmedPrefix(t: string, u: string)
    requires t == [] || !IsSpace(t[0])
    requires |u| <= |t| && forall k :: 0 <= k < |u| ==> u[k] == t[k]
    requires u == [] || !IsSpace(u[|u| - 1])
    ensures Trimmed(u)
  {
    assert u == [] || u[0] == t[0];
  }

  /** `s` is the white space `TrimStart` removed followed by what it kept. */
  lemma TrimStartParts(s: string)
    ensures var t := TrimStart(s); s == s[..|s| - |t|] + t && AllSpace(s[..|s| - |t|])
  {
    var t := TrimStart(s);
    var n := |s| - |t|;
    forall k | 0 <= k < |t| ensures s[n..][k] == t[k] { assert t[k] == s[n + k]; }
    assert s[n..] == t;
    assert s == s[..n] + s[n..];
  }

  /** `s` is what `TrimEnd` kept followed by the white space it removed. */
  lemma TrimEndParts(s: string)
    ensures var u := TrimEnd(s); s == u + s[|u|..] && AllSpace(s[|u|..])
  {
    var u := TrimEnd(s);
    var w := s[|u|..];
    forall k | 0 <= k < |w| ensures IsSpace(w[k]) { assert w[k] == s[|u| + k]; }
    forall k | 0 <= k < |u| ensures s[..|u|][k] == u[k] { assert u[k] == s[k]; }
    assert s[..|u|] == u;
    assert s == s[..|u|] + s[|u|..];
  }

  /** `s.split(sep)` for a one-character separator. */
  function Split(s: string, sep: char): (r: seq<string>)
    ensures |r| >= 1
    ensures forall k :: 0 <= k < |r| ==> sep !in r[k]
  {
    if |s| == 0 then [""]
    else
      var rest := Split(s[1..], sep);
      if s[0] == sep then [""] + rest else [[s[0]] + rest[0]] + rest[1..]
  }

  /** Joining the pieces of a split with the separator gives the text back. */
  lemma {:induction false} SplitJoin(s: string, sep: char)
    ensures Join(Split(s, sep), [sep]) == s
  {
    if |s| > 0 {
      var rest := Split(s[1..], sep);
      SplitJoin(s[1..], sep);
      if s[0] == sep {
        JoinCons("", rest, [sep]);
      } else if |rest| > 1 {
        JoinCons([s[0]] + rest[0], rest[1..], [sep]);
        JoinCons(rest[0], rest[1..], [sep]);
      }
      assert s == [s[0]] + s[1..];
    }
  }

  /** Joining a head and a non-empty tail puts the separator between them. */
  lemma JoinCons(h: string, xs: seq<string>, sep: string)
    requires |xs| > 0
    ensures Join([h] + xs, sep) == h + sep + Join(xs, sep)
  {
    assert ([h] + xs)[1..] == xs;
  }

  /** `xs.join(sep)`. */
  function Join(xs: seq<string>, sep: string): (r: string) {
    if |xs| == 0 then ""
    else if |xs| == 1 then xs[0]
    else xs[0] + sep + Join(xs[1..], sep)
  }

  /** Trims every part and drops the parts that are then empty. */
  function Clean(parts: seq<string>): (r: seq<string>)
    ensures |r| <= |parts|
  {
    if |parts| == 0 then []
    else
      var t := Trim(parts[0]);
      (if |t| == 0 then [] else [t]) + Clean(parts[1..])
  }

  /** The entries kept are exactly the non-empty trimmed parts. */
  lemma {:induction false} CleanMembers(parts: seq<string>, x: string)
    ensures x in Clean(parts) <==> x != "" && exists k :: 0 <= k < |parts| && Trim(parts[k]) == x
  {
    if parts != [] {
      var t := Trim(parts[0]);
      var head := if |t| == 0 then [] else [t];
      var rest := parts[1..];
      assert Clean(parts) == head + Clean(rest);
      CleanMembers(rest, x);
      assert x in Clean(parts) <==> x in head || x in Clean(rest);
      if exists k :: 0 <= k < |parts| && Trim(parts[k]) == x {
        var k :| 0 <= k < |parts| && Trim(parts[k]) == x;
        if k > 0 { assert rest[k - 1] == parts[k]; }
      }
      if exists k :: 0 <= k < |rest| && Trim(rest[k]) == x {
        var k :| 0 <= k < |rest| && Trim(rest[k]) == x;
        assert parts[k + 1] == rest[k];
      }
    }
  }

  /** An entry the comma-list idiom can produce: non-empty, trimmed, comma-free. */
  predicate ListEntry(x: string) {
    x != "" && Trimmed(x) && ',' !in x
  }

  /** `text.split(',').map(x => x.trim()).filter(x => x)`. */
  function ParseList(text: string): (r: seq<string>) {
    Clean(Split(text, ','))
  }

  /** Every parsed entry is non-empty, trimmed and comma-free, and there are no more entries than pieces. */
  lemma ParseListEntries(text: string)
    ensures forall k :: 0 <= k < |ParseList(text)| ==> ListEntry(ParseList(text)[k])
    ensures |ParseList(text)| <= |Split(text, ',')|
  {
    CleanEntries(Split(text, ','), ',');
  }

  /** The parsed entries are exactly the non-empty trimmed comma-separated pieces of `text`. */
  lemma ParseListMembers(text: string, parts: seq<string>, x: string)
    requires parts == Split(text, ',')
    ensures x in ParseList(text) <==> x != "" && exists k :: 0 <= k < |parts| && Trim(parts[k]) == x
  {
    CleanMembers(parts, x);
  }

  lemma {:induction false} CleanEntries(parts: seq<string>, sep: char)
    requires forall k :: 0 <= k < |parts| ==> sep !in parts[k]
    ensures forall k :: 0 <= k < |Clean(parts)| ==> Clean(parts)[k] != "" && Trimmed(Clean(parts)[k]) && sep !in Clean(parts)[k]
  {
    if parts != [] {
      var t := Trim(parts[0]);
      var head := if |t| == 0 then [] else [t];
      var tail := Clean(parts[1..]);
      assert Clean(parts) == head + tail;
      assert sep !in parts[0];
      TrimAbsent(parts[0], sep);
      TrimTrimmed(parts[0]);
      CleanEntries(parts[1..], sep);
      forall k | 0 <= k < |head| + |tail|
        ensures (head + tail)[k] != "" && Trimmed((head + tail)[k]) && sep !in (head + tail)[k]
      {
        if k >= |head| { assert (head + tail)[k] == tail[k - |head|]; }
        else { assert (head + tail)[k] == t; }
      }
    }
  }

  /** Trimming adds no character. */
  lemma TrimAbsent(s: string, c: char)
    requires c !in s
    ensures c !in Trim(s)
  {
    TrimStartAbsent(s, c);
    TrimEndAbsent(TrimStart(s), c);
  }

  lemma TrimStartAbsent(s: string, c: char)
    requires c !in s
    ensures c !in TrimStart(s)
  {
    var t := TrimStart(s);
    AbsentFromPart(s, t, c, |s| - |t|);
  }

  lemma TrimEndAbsent(s: string, c: char)
    requires c !in s
    ensures c !in TrimEnd(s)
  {
    AbsentFromPart(s, TrimEnd(s), c, 0);
  }

  /** A character missing from `s` is missing from every slice of it. */
  lemma AbsentFromPart(s: string, u: string, c: char, off: nat)
    requires c !in s
    requires off + |u| <= |s| && forall k :: 0 <= k < |u| ==> u[k] == s[off + k]
    ensures c !in u
  {
    forall k | 0 <= k < |u| ensures u[k] != c {
      assert s[off + k] in s;
    }
  }

  /** `s.split(sep)[0]`: the text before the first separator, or all of it. */
  function BeforeFirst(s: string, sep: char): (r: string)
    ensures |r| <= |s| && r == s[..|r|]
    ensures sep !in r
    ensures |r| == |s| || s[|r|] == sep
  {
    SplitHead(s, sep);
    Split(s, sep)[0]
  }

  lemma {:induction false} SplitHead(s: string, sep: char)
    ensures var h := Split(s, sep)[0]; |h| <= |s| && h == s[..|h|] && (|h| == |s| || s[|h|] == sep)
  {
    if s != [] && s[0] != sep {
      SplitHead(s[1..], sep);
    }
  }

  /**
   * The year shown for a premiere date: `premiered ? premiered.split('-')[0] : fallback`.
   */
  function YearOf(premiered: Option<string>, fallback: string): (r: string)
    ensures premiered.None? || premiered.value == "" ==> r == fallback
    ensures premiered.Some? && premiered.value != "" ==>
              |r| <= |premiered.value| && r == premiered.value[..|r|] && '-' !in r &&
              (|r| == |premiered.value| || premiered.value[|r|] == '-')
  {
    if premiered.Some? && premiered.value != "" then BeforeFirst(premiered.value, '-') else fallback
  }

  // ---------------------------------------------------------------------------
  // Joining with ", " and parsing back

  lemma {:induction false} SplitPlain(a: string, b: string, sep: char)
    requires sep !in a
    ensures Split(a + b, sep) == [a + Split(b, sep)[0]] + Split(b, sep)[1..]
  {
    if a != [] {
      assert (a + b)[1..] == a[1..] + b;
      SplitPlain(a[1..], b, sep);
      assert [a[0]] + (a[1..] + Split(b, sep)[0]) == a + Split(b, sep)[0];
    } else {
      assert a + b == b;
      var r := Split(b, sep);
      assert a + r[0] == r[0];
      assert r == [r[0]] + r[1..];
    }
  }

  lemma SplitAtSep(b: string, sep: char)
    ensures Split([sep] + b, sep) == [""] + Split(b, sep)
  {
    assert ([sep] + b)[1..] == b;
  }

  lemma {:induction false} TrimStartSpaces(pre: string, x: string)
    requires forall k :: 0 <= k < |pre| ==> IsSpace(pre[k])
    requires x != [] && !IsSpace(x[0])
    ensures TrimStart(pre + x) == x
  {
    if pre != [] {
      assert (pre + x)[1..] == pre[1..] + x;
      TrimStartSpaces(pre[1..], x);
    } else {
      assert pre + x == x;
    }
  }

  lemma TrimPadded(pre: string, x: string)
    requires pre == "" || pre == " "
    requires ListEntry(x)
    ensures Trim(pre + x) == x
  {
    TrimStartSpaces(pre, x);
    assert TrimEnd(x) == x;
  }

  lemma SplitSingle(pre: string, x: string)
    requires pre == "" || pre == " "
    requires ',' !in x
    ensures Split(pre + x, ',') == [pre + x]
  {
    SplitPlain(pre + x, "", ',');
    assert pre + x + "" == pre + x;
  }

  lemma SplitJoinStep(pre: string, xs: seq<string>)
    requires pre == "" || pre == " "
    requires |xs| >= 2 && ',' !in xs[0]
    ensures Split(pre + Join(xs, ", "), ',') == [pre + xs[0]] + Split(" " + Join(xs[1..], ", "), ',')
  {
    var x, tail := xs[0], Join(xs[1..], ", ");
    assert pre + Join(xs, ", ") == (pre + x) + ([','] + (" " + tail));
    SplitPlain(pre + x, [','] + (" " + tail), ',');
    SplitAtSep(" " + tail, ',');
    var rest := Split(" " + tail, ',');
    assert ([""] + rest)[0] == "" && ([""] + rest)[1..] == rest;
    assert (pre + x) + "" == pre + x;
  }

  lemma CleanCons(h: string, t: seq<string>)
    ensures Clean([h] + t) == (if Trim(h) == "" then [] else [Trim(h)]) + Clean(t)
  {
    assert ([h] + t)[0] == h && ([h] + t)[1..] == t;
  }

  lemma {:induction false} CleanParts(pre: string, xs: seq<string>)
    requires pre == "" || pre == " "
    requires |xs| >= 1
    requires forall k :: 0 <= k < |xs| ==> ListEntry(xs[k])
    ensures Clean(Split(pre + Join(xs, ", "), ',')) == xs
    decreases |xs|
  {
    if |xs| == 1 {
      CleanSingle(pre, xs[0]);
    } else {
      var tail := xs[1..];
      assert forall k :: 0 <= k < |tail| ==> ListEntry(tail[k]);
      CleanParts(" ", tail);
      CleanStep(pre, xs);
    }
  }

  lemma CleanSingle(pre: string, x: string)
    requires pre == "" || pre == " "
    requires ListEntry(x)
    ensures Clean(Split(pre + Join([x], ", "), ',')) == [x]
  {
    TrimPadded(pre, x);
    SplitSingle(pre, x);
    CleanCons(pre + x, []);
  }

  lemma CleanStep(pre: string, xs: seq<string>)
    requires pre == "" || pre == " "
    requires |xs| >= 2 && ListEntry(xs[0])
    requires Clean(Split(" " + Join(xs[1..], ", "), ',')) == xs[1..]
    ensures Clean(Split(pre + Join(xs, ", "), ',')) == xs
  {
    var x := xs[0];
    var rest := Split(" " + Join(xs[1..], ", "), ',');
    SplitJoinStep(pre, xs);
    TrimPadded(pre, x);
    CleanConsEntry(pre + x, x, rest, xs[1..]);
    ConsTail(xs);
  }

  lemma ConsTail<T>(xs: seq<T>)
    requires xs != []
    ensures [xs[0]] + xs[1..] == xs
  {
  }

  lemma CleanConsEntry(h: string, x: string, rest: seq<string>, t: seq<string>)
    requires Trim(h) == x && x != ""
    requires Clean(rest) == t
    ensures Clean([h] + rest) == [x] + t
  {
    CleanCons(h, rest);
  }

  /**
   * Joining a list with ", " and parsing the text back with the comma-list idiom
   * gives the list again, when every entry is non-empty, trimmed and comma-free.
   */
  lemma ParseJoinRoundTrip(xs: seq<string>)
    requires forall k :: 0 <= k < |xs| ==> ListEntry(xs[k])
    ensures ParseList(Join(xs, ", ")) == xs
  {
    if xs == [] {
      assert Split("", ',') == [""];
    } else {
      CleanParts("", xs);
      assert "" + Join(xs, ", ") == Join(xs, ", ");
    }
  }

  /** Concatenation is associative. */
  lemma SeqAssoc<T>(a: seq<T>, b: seq<T>, c: seq<T>)
    ensures (a + b) + c == a + (b + c)
  {
  }

  // ---------------------------------------------------------------------------
  // Code-unit order on strings

  /** `a < b` on JavaScript strings: lexicographic by character code. */
  predicate LexLess(a: string, b: string) {
    if a == [] then b != []
    else if b == [] then false
    else if a[0] != b[0] then a[0] < b[0]
    else LexLess(a[1..], b[1..])
  }

  /** `a <= b` on JavaScript strings. */
  predicate LexLe(a: string, b: string) {
    a == b || LexLess(a, b)
  }

  lemma {:induction false} LexLessIrreflexive(a: string)
    ensures !LexLess(a, a)
  {
    if a != [] {
      LexLessIrreflexive(a[1..]);
    }
  }

  lemma {:induction false} LexLessTransitive(a: string, b: string, c: string)
    requires LexLess(a, b) && LexLess(b, c)
    ensures LexLess(a, c)
  {
    if a != [] && b != [] && c != [] && a[0] == b[0] && b[0] == c[0] {
      LexLessTransitive(a[1..], b[1..], c[1..]);
    }
  }

  lemma LexLeTransitive(a: string, b: string, c: string)
    requires LexLe(a, b) && LexLe(b, c)
    ensures LexLe(a, c)
  {
    if a != b && b != c {
      LexLessTransitive(a, b, c);
    }
  }

  lemma {:induction false} LexLessTotal(a: string, b: string)
    requires a != b
    ensures LexLess(a, b) || LexLess(b, a)
  {
    if a != [] && b != [] && a[0] == b[0] {
      assert a == [a[0]] + a[1..] && b == [b[0]] + b[1..];
      LexLessTotal(a[1..], b[1..]);
    }
  }

  lemma {:induction false} LexLessAsymmetric(a: string, b: string)
    requires LexLess(a, b)
    ensures !LexLess(b, a)
  {
    if a != [] && b != [] && a[0] == b[0] {
      LexLessAsymmetric(a[1..], b[1..]);
    }
  }
}

=== FILE: types.dfy ===
/**
 * The documents and records of the catalog (src/models/types.ts) as value types.
 * Optional TypeScript fields (`x?: T`, `T | null`) become `Option<T>`; the
 * CouchDB `_id` and `_rev` of a document are `id` and `rev`.
 */
module Types {
  import opened Wrappers

  /** JavaScript truthiness of an optional string: present and non-empty. */
  predicate Present(s: Option<string>) {
    s.Some? && s.value != ""
  }

  /** `s || fallback` for an optional string. */
  function OrElse(s: Option<string>, fallback: string): (r: string) {
    if Present(s) then s.value else fallback
  }

  datatype ContentType = Movie | Serie
  datatype Gender = Hombre | Mujer

  /** An actor (`type: 'person'`). */
  datatype Person = Person(
    id: Option<string>,
    rev: Option<string>,
    fullName: string,
    country: string,
    birthDate: string,
    gender: Gender,
    image: Option<string>,
    bio: Option<string>)

  datatype Season = Season(seasonNumber: int, episodeCount: int)

  datatype Platform = YouTube | Vimeo | OtherPlatform
  datatype VideoLink = VideoLink(id: string, platform: Platform, title: Option<string>, addedAt: string)
  datatype VideoFile = VideoFile(url: Option<string>, filename: Option<string>)

  /**
   * `awards` is declared `string[]`, but two writers store the empty string `''`
   * in it; both shapes are kept.
   */
  datatype Awards = AwardList(items: seq<string>) | AwardText(text: string)

  /** A movie or series (`type: 'content'`). */
  datatype Content = Content(
    id: Option<string>,
    rev: Option<string>,
    contentType: ContentType,
    name: string,
    genres: seq<string>,
    premiered: string,
    awards: Awards,
    downloads: int,
    rating: Option<real>,
    mainCastId: string,
    castIds: seq<string>,
    seasons: Option<seq<Season>>,
    videos: Option<seq<VideoLink>>,
    video: Option<VideoFile>,
    image: Option<string>)

  /**
   * A content with its main cast and cast resolved to persons on the client;
   * `content` keeps every field of the stored document, ids included.
   */
  datatype ContentPopulated = ContentPopulated(
    content: Content,
    actorPrincipal: Option<Person>,
    reparto: seq<Person>)

  datatype WatchVideo = WatchVideo(id: string, title: Option<string>)

  /** An entry of the local watchlist, keyed by the TVMaze show id. */
  datatype WatchlistItem = WatchlistItem(
    serieId: int,
    tituloFormateado: string,
    esTop: bool,
    name: string,
    image: Option<string>,
    summaryEs: Option<string>,
    genres: Option<seq<string>>,
    rating: Option<real>,
    videoId: Option<string>,
    videos: Option<seq<WatchVideo>>,
    premiered: Option<string>,
    downloads: Option<int>,
    myRating: Option<int>,
    myReview: Option<string>)

  datatype ShowImage = ShowImage(medium: string, original: string)

  /**
   * A TVMaze show together with the translation and trailer fields the search
   * page attaches to it (`ShowWithTranslation`); a plain TVMaze show has them absent.
   */
  datatype TvMazeShow = TvMazeShow(
    id: int,
    name: string,
    genres: seq<string>,
    premiered: Option<string>,
    rating: Option<real>,
    image: Option<ShowImage>,
    summary: string,
    summaryEs: Option<string>,
    nameEs: Option<string>,
    genresEs: Option<seq<string>>,
    videoId: Option<string>)

  /** `show.rating?.average || 0`. */
  function RatingOrZero(show: TvMazeShow): (r: real) {
    show.rating.GetOr(0.0)
  }

  /** `show.image?.original || show.image?.medium`. */
  function PosterOf(show: TvMazeShow): (r: Option<string>) {
    match show.image
    case None => None
    case Some(img) => Some(if img.original != "" then img.original else img.medium)
  }
}

=== FILE: watchlist.dfy ===
/**
 * The personal watchlist (src/services/watchlist.service.ts): an in-memory list of
 * shows keyed by their TVMaze id, written through to the key/value store under
 * `"mi_watchlist"` on every change. The per-item edits are pure functions on the
 * list; the class holds the list and its persisted copy.
 */
module Watchlist {
  import opened Wrappers
  import opened Types
  import opened Text
  import opened Storage

  const KEY: string := "mi_watchlist"

  /** Some item of `list` has show id `id`. */
  predicate Listed(list: seq<WatchlistItem>, id: int) {
    exists k :: 0 <= k < |list| && list[k].serieId == id
  }

  /** No show id occurs twice. */
  predicate UniqueIds(list: seq<WatchlistItem>) {
    forall i, j :: 0 <= i < j < |list| ==> list[i].serieId != list[j].serieId
  }

  /** `find(item => item.serie_id === id)`: the first item with that id. */
  function Find(list: seq<WatchlistItem>, id: int): (r: Option<WatchlistItem>)
    ensures r.Some? <==> Listed(list, id)
    ensures r.Some? ==> r.value.serieId == id
    ensures r.Some? ==>
      exists k :: 0 <= k < |list| && list[k] == r.value && forall j :: 0 <= j < k ==> list[j].serieId != id
  {
    if list == [] then None
    else if list[0].serieId == id then Some(list[0])
    else
      var r := Find(list[1..], id);
      assert r.Some? ==> list[1..][0..] == list[1..];
      assert Listed(list, id) ==> Listed(list[1..], id) by {
        if Listed(list, id) {
          var k :| 0 <= k < |list| && list[k].serieId == id;
          assert list[1..][k - 1].serieId == id;
        }
      }
      if r.Some? then
        assert exists k :: 0 <= k < |list| && list[k] == r.value && forall j :: 0 <= j < k ==> list[j].serieId != id by {
          var k :| 0 <= k < |list[1..]| && list[1..][k] == r.value && forall j :: 0 <= j < k ==> list[1..][j].serieId != id;
          assert list[k + 1] == r.value;
          assert forall j :: 0 <= j < k + 1 ==> list[j].serieId != id by {
            forall j | 0 <= j < k + 1 ensures list[j].serieId != id {
              if j > 0 { assert list[j] == list[1..][j - 1]; }
            }
          }
        }
        r
      else r
  }

  /** `add`: appends `item` unless its show id is already listed. */
  function AddItem(list: seq<WatchlistItem>, item: WatchlistItem): (r: seq<WatchlistItem>)
    ensures Listed(list, item.serieId) ==> r == list
    ensures !Listed(list, item.serieId) ==> r == list + [item]
    ensures Listed(r, item.serieId)
    ensures UniqueIds(list) ==> UniqueIds(r)
  {
    if Find(list, item.serieId).Some? then list
    else
      assert (list + [item])[|list|] == item;
      list + [item]
  }

  /** `filter(item => item.serie_id !== id)`. */
  function RemoveId(list: seq<WatchlistItem>, id: int): (r: seq<WatchlistItem>)
    ensures forall k :: 0 <= k < |r| ==> r[k].serieId != id
    ensures forall x :: x in r ==> x in list
    ensures forall x :: x in list && x.serieId != id ==> x in r
  {
    if list == [] then []
    else
      var rest := RemoveId(list[1..], id);
      if list[0].serieId == id then rest else [list[0]] + rest
  }

  /** Removing an id that is not listed leaves the list as it was. */
  lemma {:induction false} RemoveIdAbsent(list: seq<WatchlistItem>, id: int)
    requires !Listed(list, id)
    ensures RemoveId(list, id) == list
  {
    if list != [] {
      forall k | 0 <= k < |list[1..]| ensures list[1..][k].serieId != id {
        assert list[1..][k] == list[k + 1];
      }
      RemoveIdAbsent(list[1..], id);
      ConsTail(list);
    }
  }

  /** Removing by id keeps show ids unique. */
  lemma {:induction false} RemoveIdUnique(list: seq<WatchlistItem>, id: int)
    requires UniqueIds(list)
    ensures UniqueIds(RemoveId(list, id))
  {
    if list != [] {
      var rest := RemoveId(list[1..], id);
      assert UniqueIds(list[1..]) by {
        forall i, j | 0 <= i < j < |list[1..]| ensures list[1..][i].serieId != list[1..][j].serieId {
          assert list[1..][i] == list[i + 1] && list[1..][j] == list[j + 1];
        }
      }
      RemoveIdUnique(list[1..], id);
      if list[0].serieId != id {
        var r := [list[0]] + rest;
        forall x | x in rest ensures x.serieId != list[0].serieId {
          var k :| 0 <= k < |list[1..]| && list[1..][k] == x;
          assert list[k + 1] == x;
        }
        forall i, j | 0 <= i < j < |r| ensures r[i].serieId != r[j].serieId {
          assert r[j] == rest[j - 1];
          assert r[j] in rest;
          if i > 0 { assert r[i] == rest[i - 1]; }
        }
      }
    }
  }

  /** Removing by id distributes over concatenation: the kept items stay in their order. */
  lemma {:induction false} RemoveIdConcat(a: seq<WatchlistItem>, b: seq<WatchlistItem>, id: int)
    ensures RemoveId(a + b, id) == RemoveId(a, id) + RemoveId(b, id)
  {
    if a == [] {
      assert a + b == b;
    } else {
      assert (a + b)[1..] == a[1..] + b;
      RemoveIdConcat(a[1..], b, id);
    }
  }

  /** Removing an id from one item keeps it exactly when its id differs. */
  lemma RemoveIdSingle(x: WatchlistItem, id: int)
    ensures RemoveId([x], id) == if x.serieId == id then [] else [x]
  {
    assert [x][1..] == [];
  }

  /** The ids of a video list, in order. */
  function VideoIds(videos: seq<WatchVideo>): (r: seq<string>)
    ensures |r| == |videos|
    ensures forall k :: 0 <= k < |videos| ==> r[k] == videos[k].id
  {
    seq(|videos|, k requires 0 <= k < |videos| => videos[k].id)
  }

  /** No video id occurs twice in the item's list. */
  predicate DistinctVideos(item: WatchlistItem) {
    DistinctIds(item.videos.GetOr([]))
  }

  /** `filter(v => v.id !== videoId)`. */
  function FilterVideos(videos: seq<WatchVideo>, vid: string): (r: seq<WatchVideo>)
    ensures forall k :: 0 <= k < |r| ==> r[k].id != vid
    ensures forall v :: v in r ==> v in videos
    ensures forall v :: v in videos && v.id != vid ==> v in r
  {
    if videos == [] then []
    else
      var rest := FilterVideos(videos[1..], vid);
      if videos[0].id == vid then rest else [videos[0]] + rest
  }

  predicate DistinctIds(vs: seq<WatchVideo>) {
    forall i, j :: 0 <= i < j < |vs| ==> vs[i].id != vs[j].id
  }

  /** Filtering a video list keeps its ids distinct. */
  lemma {:induction false} FilterVideosDistinct(videos: seq<WatchVideo>, vid: string)
    requires DistinctIds(videos)
    ensures DistinctIds(FilterVideos(videos, vid))
  {
    if videos != [] {
      var rest := FilterVideos(videos[1..], vid);
      assert DistinctIds(videos[1..]) by {
        forall i, j | 0 <= i < j < |videos[1..]| ensures videos[1..][i].id != videos[1..][j].id {
          assert videos[1..][i] == videos[i + 1] && videos[1..][j] == videos[j + 1];
        }
      }
      FilterVideosDistinct(videos[1..], vid);
      if videos[0].id != vid {
        var r := [videos[0]] + rest;
        forall x | x in rest ensures x.id != videos[0].id {
          var k :| 0 <= k < |videos[1..]| && videos[1..][k] == x;
          assert videos[k + 1] == x;
        }
        forall i, j | 0 <= i < j < |r| ensures r[i].id != r[j].id {
          assert r[j] == rest[j - 1];
          assert r[j] in rest;
          if i > 0 { assert r[i] == rest[i - 1]; }
        }
      }
    }
  }

  /** `addVideo` on one item: no duplicate id; the new video becomes main only when there is none. */
  function WithVideoAdded(item: WatchlistItem, vid: string, title: Option<string>): (r: WatchlistItem)
    ensures r == item.(videos := r.videos, videoId := r.videoId)
    ensures vid in VideoIds(r.videos.GetOr([]))
    ensures vid in VideoIds(item.videos.GetOr([])) ==> r == item
    ensures vid !in VideoIds(item.videos.GetOr([])) ==>
              r.videos == Some(item.videos.GetOr([]) + [WatchVideo(vid, title)]) &&
              r.videoId == (if Present(item.videoId) then item.videoId else Some(vid))
    ensures DistinctVideos(item) ==> DistinctVideos(r)
  {
    var videos := item.videos.GetOr([]);
    if vid in VideoIds(videos) then item
    else
      var added := videos + [WatchVideo(vid, title)];
      assert VideoIds(added)[|videos|] == vid;
      item.(videos := Some(added), videoId := if Present(item.videoId) then item.videoId else Some(vid))
  }

  /**
   * `removeVideo` on one item: the id disappears from the list; if it was the
   * main video, the main becomes the first remaining one, or none.
   */
  function WithVideoRemoved(item: WatchlistItem, vid: string): (r: WatchlistItem)
    ensures r == item.(videos := r.videos, videoId := r.videoId)
    ensures r.videos == Some(FilterVideos(item.videos.GetOr([]), vid))
    ensures vid !in VideoIds(r.videos.value)
    ensures r.videoId != Some(vid)
    ensures item.videoId != Some(vid) ==> r.videoId == item.videoId
    ensures item.videoId == Some(vid) ==>
              r.videoId == (if r.videos.value == [] then None else Some(r.videos.value[0].id))
    ensures DistinctVideos(item) ==> DistinctVideos(r)
  {
    var videos := FilterVideos(item.videos.GetOr([]), vid);
    assert DistinctVideos(item) ==> DistinctIds(videos) by {
      if DistinctVideos(item) { FilterVideosDistinct(item.videos.GetOr([]), vid); }
    }
    var main := if item.videoId == Some(vid) then (if |videos| > 0 then Some(videos[0].id) else None) else item.videoId;
    item.(videos := Some(videos), videoId := main)
  }

  /** The per-item edits of the service's `map` callbacks. */
  datatype ItemEdit =
    | SetVideo(videoId: string)
    | SetMyRating(rating: int)
    | SetMyReview(review: string)
    | SetSummaryEs(summary: string)
    | AddVideo(vid: string, title: Option<string>)
    | RemoveVideo(vid: string)
    | IncrementDownloads

  /** One edit applied to one item: the show id never changes, and only the named field does. */
  function ApplyEdit(item: WatchlistItem, edit: ItemEdit): (r: WatchlistItem)
    ensures r.serieId == item.serieId
    ensures DistinctVideos(item) ==> DistinctVideos(r)
    ensures edit.SetVideo? ==> r == item.(videoId := Some(edit.videoId))
    ensures edit.SetMyRating? ==> r == item.(myRating := Some(edit.rating))
    ensures edit.SetMyReview? ==> r == item.(myReview := Some(edit.review))
    ensures edit.SetSummaryEs? ==> r == item.(summaryEs := Some(edit.summary))
    ensures edit.IncrementDownloads? ==> r == item.(downloads := Some(item.downloads.GetOr(0) + 1))
  {
    match edit
    case SetVideo(v) => item.(videoId := Some(v))
    case SetMyRating(n) => item.(myRating := Some(n))
    case SetMyReview(s) => item.(myReview := Some(s))
    case SetSummaryEs(s) => item.(summaryEs := Some(s))
    case AddVideo(v, t) => WithVideoAdded(item, v, t)
    case RemoveVideo(v) => WithVideoRemoved(item, v)
    case IncrementDownloads => item.(downloads := Some(item.downloads.GetOr(0) + 1))
  }

  /** After `AddVideo`, every item of the edited serie lists the video. */
  lemma VideoAddedWhere(list: seq<WatchlistItem>, id: int, vid: string, title: Option<string>)
    ensures var r := UpdateWhere(list, id, AddVideo(vid, title));
      forall k :: 0 <= k < |r| && r[k].serieId == id ==> vid in VideoIds(r[k].videos.GetOr([]))
  {
    var r := UpdateWhere(list, id, AddVideo(vid, title));
    forall k | 0 <= k < |r| && r[k].serieId == id
      ensures vid in VideoIds(r[k].videos.GetOr([]))
    {
      assert r[k] == WithVideoAdded(list[k], vid, title);
    }
  }

  /** After `RemoveVideo`, no item of the edited serie lists the video or has it as main video. */
  lemma VideoRemovedWhere(list: seq<WatchlistItem>, id: int, vid: string)
    ensures var r := UpdateWhere(list, id, RemoveVideo(vid));
      forall k :: 0 <= k < |r| && r[k].serieId == id ==>
        vid !in VideoIds(r[k].videos.GetOr([])) && r[k].videoId != Some(vid)
  {
    var r := UpdateWhere(list, id, RemoveVideo(vid));
    forall k | 0 <= k < |r| && r[k].serieId == id
      ensures vid !in VideoIds(r[k].videos.GetOr([])) && r[k].videoId != Some(vid)
    {
      assert r[k] == WithVideoRemoved(list[k], vid);
    }
  }

  /** Every item's video ids are distinct. */
  predicate AllDistinctVideos(list: seq<WatchlistItem>) {
    forall k :: 0 <= k < |list| ==> DistinctVideos(list[k])
  }

  /** `map(item => item.serie_id === id ? edit(item) : item)`. */
  function UpdateWhere(list: seq<WatchlistItem>, id: int, edit: ItemEdit): (r: seq<WatchlistItem>)
    ensures |r| == |list|
    ensures forall k :: 0 <= k < |list| ==>
              r[k] == if list[k].serieId == id then ApplyEdit(list[k], edit) else list[k]
    ensures forall k :: 0 <= k < |list| ==> r[k].serieId == list[k].serieId
    ensures UniqueIds(list) ==> UniqueIds(r)
    ensures AllDistinctVideos(list) ==> AllDistinctVideos(r)
  {
    seq(|list|, k requires 0 <= k < |list| => if list[k].serieId == id then ApplyEdit(list[k], edit) else list[k])
  }

  /** The entry `toggle` creates for a show that is not yet listed. */
  function NewItemFromShow(show: TvMazeShow): (r: WatchlistItem)
    ensures r.serieId == show.id && r.name == show.name
    ensures r.tituloFormateado == show.name + " (" + YearOf(show.premiered, "Sin año") + ")"
    ensures r.esTop <==> RatingOrZero(show) >= 8.0
    ensures r.image == PosterOf(show)
    ensures r.summaryEs == Some(OrElse(show.summaryEs, ""))
    ensures r.genres == Some(if show.genresEs.Some? then show.genresEs.value else show.genres)
    ensures r.rating == Some(RatingOrZero(show))
    ensures r.videoId == show.videoId
    ensures r.premiered == (if Present(show.premiered) then show.premiered else None)
    ensures r.videos.None? && r.downloads.None? && r.myRating.None? && r.myReview.None?
  {
    var year := YearOf(show.premiered, "Sin año");
    WatchlistItem(
      show.id,
      show.name + " (" + year + ")",
      RatingOrZero(show) >= 8.0,
      show.name,
      PosterOf(show),
      Some(OrElse(show.summaryEs, "")),
      Some(if show.genresEs.Some? then show.genresEs.value else show.genres),
      Some(RatingOrZero(show)),
      show.videoId,
      None,
      if Present(show.premiered) then show.premiered else None,
      None,
      None,
      None)
  }

  /** `toggle`: removes the show if listed, otherwise appends a new entry for it. */
  function ToggleList(list: seq<WatchlistItem>, show: TvMazeShow): (r: seq<WatchlistItem>)
    ensures Listed(r, show.id) <==> !Listed(list, show.id)
    ensures forall id :: id != show.id ==> (Listed(r, id) <==> Listed(list, id))
    ensures Listed(list, show.id) ==> r == RemoveId(list, show.id)
    ensures !Listed(list, show.id) ==> r == list + [NewItemFromShow(show)]
    ensures UniqueIds(list) ==> UniqueIds(r)
  {
    if Find(list, show.id).Some? then
      var r := RemoveId(list, show.id);
      assert UniqueIds(list) ==> UniqueIds(r) by {
        if UniqueIds(list) { RemoveIdUnique(list, show.id); }
      }
      assert forall id :: id != show.id ==> (Listed(r, id) <==> Listed(list, id)) by {
        forall id | id != show.id ensures Listed(r, id) <==> Listed(list, id) {
          if Listed(list, id) {
            var k :| 0 <= k < |list| && list[k].serieId == id;
            assert list[k] in r;
          }
          if Listed(r, id) {
            var k :| 0 <= k < |r| && r[k].serieId == id;
            assert r[k] in list;
          }
        }
      }
      r
    else
      var item := NewItemFromShow(show);
      var r := list + [item];
      assert r[|list|] == item;
      forall id | id != show.id ensures Listed(r, id) <==> Listed(list, id) {
        if Listed(list, id) {
          var k :| 0 <= k < |list| && list[k].serieId == id;
          assert r[k] == list[k];
        }
        if Listed(r, id) {
          var k :| 0 <= k < |r| && r[k].serieId == id;
          assert k < |list| && r[k] == list[k];
        }
      }
      AddItem(list, item)
  }

  class WatchlistService {
    const storage: StorageService
    /** The `watchlist` signal. */
    var watchlist: seq<WatchlistItem>

    /** The stored copy under `KEY` is the in-memory list. */
    ghost predicate Persisted()
      reads this, storage
    {
      KEY in storage.local && storage.local[KEY] == Encoded(WatchlistJson(watchlist))
    }

    /** The invariants every mutation preserves. */
    ghost predicate WellFormed()
      reads this
    {
      UniqueIds(watchlist) && AllDistinctVideos(watchlist)
    }

    /** `loadInitial`: the stored list, or the empty list when there is none or it has another shape. */
    constructor (storage: StorageService)
      ensures this.storage == storage
      ensures storage.GetItem(KEY).Some? && storage.GetItem(KEY).value.WatchlistJson? ==>
                watchlist == storage.GetItem(KEY).value.items
      ensures !(storage.GetItem(KEY).Some? && storage.GetItem(KEY).value.WatchlistJson?) ==> watchlist == []
    {
      this.storage := storage;
      watchlist := match storage.GetItem(KEY)
        case Some(WatchlistJson(items)) => items
        case _ => [];
    }

    method IsInWatchlist(id: int) returns (b: bool)
      ensures b <==> exists k :: 0 <= k < |watchlist| && watchlist[k].serieId == id
    {
      b := Find(watchlist, id).Some?;
    }

    method GetItem(id: int) returns (r: Option<WatchlistItem>)
      ensures r == Find(watchlist, id)
      ensures r.Some? <==> Listed(watchlist, id)
      ensures r.Some? ==> r.value in watchlist && r.value.serieId == id
      ensures UniqueIds(watchlist) && r.Some? ==> forall x :: x in watchlist && x.serieId == id ==> x == r.value
    {
      r := Find(watchlist, id);
    }

    /** `update`: replaces the list and writes the same value to the store. */
    method Update(list: seq<WatchlistItem>)
      modifies this, storage
      ensures watchlist == list
      ensures storage.local == old(storage.local)[KEY := Encoded(WatchlistJson(list))]
      ensures Persisted()
    {
      watchlist := list;
      storage.SetItem(KEY, WatchlistJson(list));
    }

    method Toggle(show: TvMazeShow)
      modifies this, storage
      ensures watchlist == ToggleList(old(watchlist), show)
      ensures Listed(watchlist, show.id) <==> !Listed(old(watchlist), show.id)
      ensures storage.local == old(storage.local)[KEY := Encoded(WatchlistJson(watchlist))]
      ensures Persisted()
      ensures old(WellFormed()) ==> WellFormed()
    {
      var found := Find(watchlist, show.id);
      if found.Some? {
        if UniqueIds(watchlist) {
          RemoveIdUnique(watchlist, show.id);
        }
        Update(RemoveId(watchlist, show.id));
      } else {
        Update(watchlist + [NewItemFromShow(show)]);
      }
    }

    method Add(item: WatchlistItem)
      modifies this, storage
      ensures Listed(old(watchlist), item.serieId) ==> watchlist == old(watchlist) && storage.local == old(storage.local)
      ensures !Listed(old(watchlist), item.serieId) ==>
                watchlist == old(watchlist) + [item] &&
                storage.local == old(storage.local)[KEY := Encoded(WatchlistJson(watchlist))]
      ensures Listed(watchlist, item.serieId)
      ensures old(WellFormed()) && DistinctVideos(item) ==> WellFormed()
    {
      var found := Find(watchlist, item.serieId);
      if found.None? {
        Update(AddItem(watchlist, item));
      }
    }

    method RemoveById(id: int)
      modifies this, storage
      ensures watchlist == RemoveId(old(watchlist), id)
      ensures !Listed(watchlist, id)
      ensures storage.local == old(storage.local)[KEY := Encoded(WatchlistJson(watchlist))]
      ensures Persisted()
      ensures old(WellFormed()) ==> WellFormed()
    {
      if UniqueIds(watchlist) {
        RemoveIdUnique(watchlist, id);
      }
      Update(RemoveId(watchlist, id));
    }

    /** The shared shape of every per-item edit: map over the list, then `update`. */
    method Edit(id: int, edit: ItemEdit)
      modifies this, storage
      ensures watchlist == UpdateWhere(old(watchlist), id, edit)
      ensures storage.local == old(storage.local)[KEY := Encoded(WatchlistJson(watchlist))]
      ensures Persisted()
      ensures old(WellFormed()) ==> WellFormed()
    {
      Update(UpdateWhere(watchlist, id, edit));
    }

    method UpdateVideo(id: int, videoId: string)
      modifies this, storage
      ensures watchlist == UpdateWhere(old(watchlist), id, SetVideo(videoId))
      ensures storage.local == old(storage.local)[KEY := Encoded(WatchlistJson(watchlist))]
      ensures Persisted() && (old(WellFormed()) ==> WellFormed())
    {
      Edit(id, SetVideo(videoId));
    }

    method UpdateMyRating(id: int, rating: int)
      modifies this, storage
      ensures watchlist == UpdateWhere(old(watchlist), id, SetMyRating(rating))
      ensures storage.local == old(storage.local)[KEY := Encoded(WatchlistJson(watchlist))]
      ensures Persisted() && (old(WellFormed()) ==> WellFormed())
    {
      Edit(id, SetMyRating(rating));
    }

    method UpdateMyReview(id: int, review: string)
      modifies this, storage
      ensures watchlist == UpdateWhere(old(watchlist), id, SetMyReview(review))
      ensures storage.local == old(storage.local)[KEY := Encoded(WatchlistJson(watchlist))]
      ensures Persisted() && (old(WellFormed()) ==> WellFormed())
    {
      Edit(id, SetMyReview(review));
    }

    method UpdateSummaryEs(id: int, summaryEs: string)
      modifies this, storage
      ensures watchlist == UpdateWhere(old(watchlist), id, SetSummaryEs(summaryEs))
      ensures storage.local == old(storage.local)[KEY := Encoded(WatchlistJson(watchlist))]
      ensures Persisted() && (old(WellFormed()) ==> WellFormed())
    {
      Edit(id, SetSummaryEs(summaryEs));
    }

    method AddVideoTo(id: int, videoId: string, title: Option<string>)
      modifies this, storage
      ensures watchlist == UpdateWhere(old(watchlist), id, AddVideo(videoId, title))
      ensures forall k :: 0 <= k < |watchlist| && watchlist[k].serieId == id ==>
                videoId in VideoIds(watchlist[k].videos.GetOr([]))
      ensures storage.local == old(storage.local)[KEY := Encoded(WatchlistJson(watchlist))]
      ensures Persisted() && (old(WellFormed()) ==> WellFormed())
    {
      VideoAddedWhere(watchlist, id, videoId, title);
      Edit(id, AddVideo(videoId, title));
    }

    method RemoveVideoFrom(id: int, videoId: string)
      modifies this, storage
      ensures watchlist == UpdateWhere(old(watchlist), id, RemoveVideo(videoId))
      ensures forall k :: 0 <= k < |watchlist| && watchlist[k].serieId == id ==>
                videoId !in VideoIds(watchlist[k].videos.GetOr([])) && watchlist[k].videoId != Some(videoId)
      ensures storage.local == old(storage.local)[KEY := Encoded(WatchlistJson(watchlist))]
      ensures Persisted() && (old(WellFormed()) ==> WellFormed())
    {
      VideoRemovedWhere(watchlist, id, videoId);
      Edit(id, RemoveVideo(videoId));
    }

    method SetMainVideo(id: int, videoId: string)
      modifies this, storage
      ensures watchlist == UpdateWhere(old(watchlist), id, SetVideo(videoId))
      ensures forall k :: 0 <= k < |watchlist| && watchlist[k].serieId == id ==> watchlist[k].videoId == Some(videoId)
      ensures storage.local == old(storage.local)[KEY := Encoded(WatchlistJson(watchlist))]
      ensures Persisted() && (old(WellFormed()) ==> WellFormed())
    {
      ghost var before := watchlist;
      Edit(id, SetVideo(videoId));
      forall k | 0 <= k < |watchlist| && watchlist[k].serieId == id
        ensures watchlist[k].videoId == Some(videoId)
      {
        assert watchlist[k] == ApplyEdit(before[k], SetVideo(videoId));
      }
    }

    method IncrementDownloadsOf(id: int)
      modifies this, storage
      ensures watchlist == UpdateWhere(old(watchlist), id, IncrementDownloads)
      ensures forall k :: 0 <= k < |watchlist| && watchlist[k].serieId == id ==>
                watchlist[k].downloads == Some(old(watchlist)[k].downloads.GetOr(0) + 1)
      ensures storage.local == old(storage.local)[KEY := Encoded(WatchlistJson(watchlist))]
      ensures Persisted() && (old(WellFormed()) ==> WellFormed())
    {
      ghost var before := watchlist;
      Edit(id, IncrementDownloads);
      forall k | 0 <= k < |watchlist| && watchlist[k].serieId == id
        ensures watchlist[k].downloads == Some(before[k].downloads.GetOr(0) + 1)
      {
        assert watchlist[k] == ApplyEdit(before[k], IncrementDownloads);
      }
    }
  }
}

=== FILE: wrappers.dfy ===
/** The optional-value wrapper used for TypeScript's `T | undefined` and `T | null`. */
module Wrappers {

  datatype Option<+T> = None | Some(value: T) {

    /** `x ?? fallback`: the value when present, the fallback otherwise. */
    function GetOr(fallback: T): T {
      if Some? then value else fallback
    }
  }
}
